=== FILE: README.md ===
# mikrotik-asn-iplist generator core, in Dafny

The generator turns a resource config (`resources/<id>.yaml`: a
`resource_id` and a list of ASNs) into a RouterOS script `dist/<id>.rsc`.
For each ASN it asks the RIPEstat registry for the announced prefixes and
keeps the IPv4 networks, with host bits masked off. It then removes
duplicates, sorts the networks by (network address, prefix length) and
renders a script. The script has:
- a header whose `# count=` line holds the number of networks;
- one `remove` command that clears every address-list entry tagged
  `iplist:auto:<id>`;
- one `add ... list=$AddressList` command per network.

Publication goes through a temporary file. The generator writes it, reads
it back and self-checks it, and only then renames it over the final file.
On any failure the temporary file is removed and the previous artifact is
left as it was. `generate_all` does this for every config, in sorted
file-name order, and stops at the first error.

The project has these modules:
- `Wrappers` (wrappers.dfy) holds `Option`, `Result` and `Outcome`.
- `Text` (text.dfy) holds the string operations the core relies on:
  - Python's `splitlines`, `strip` and `int`;
  - `str(n)` and `"\n".join`;
  - splitting at a separator;
  - the code-point order that `sorted` uses on file names.
- `Values` (values.dfy) holds the decoded YAML/JSON documents, with Python
  truthiness and `dict.get`.
- `Errors` (values.dfy) holds every `GeneratorError` the core raises, as a
  datatype.
- `Ipv4` (ipv4.dfy) covers:
  - the IPv4 part of `ipaddress.ip_network(..., strict=False)`;
  - `str()` of a network.
- `Config` (config.dfy) is the validation in `load_resource_config`.
- `Feed` (feed.dfy) holds the decision in `_fetch_json` and
  `_extract_prefixes`.
- `Normalize` (normalize.dfy) holds `_normalize_ipv4` and `_dedup_sort`.
- `Rsc` (rsc.dfy) holds `_render_rsc` and `_self_check_rsc`. It also gives
  an independent, position-based description of the artifacts the
  self-check accepts.
- `Generator` (generator.dfy) holds `generate_resource` and `generate_all`:
  - as functions over the state of `dist/`;
  - as methods of the class `Disk`, whose field `files` is `dist/` and is
    updated in place.

Each loop of the source that builds a result is a method proved equal to
a specification function:
- the walk over a payload's prefixes;
- the IPv4 filter;
- the renderer's line list;
- the ASN gathering loop;
- the loop over configs.

The self-check's scans of the lines (core.py's `next(...)` generators,
the `add_lines` comprehension and the `for line in add_lines` test) only
inspect the text and build nothing that outlives the check. They are the
functions `Rsc.FirstCommand`, `Rsc.FirstCountLine` and `Rsc.AddLinesOf`
and the predicate `Rsc.AllTargetList`, which `Rsc.CheckLines` combines.

The properties the source promises are proved as lemmas about those
functions.

Every oracle of the source is a parameter:
- the registry's answer for each ASN;
- the clock reading for each resource;
- the outcome of each file operation.

Each oracle is a function of the ASN or the resource id. A repeated
fetch of one ASN, or a second generation of one id within one
`generate_all` run, therefore gets the same answer. The source does not
promise that.

The main results are these:
- The self-check passes exactly on the artifacts described position by
  position (`Rsc.SelfCheckMeansAccepted`).
- It accepts the renderer's own output for every non-empty network list
  when the resource id and the timestamp hold no line boundary
  (`Rsc.RenderThenCheck`).
- A failed publication leaves the artifact untouched and removes the
  temporary file (`Generator.PublishedFailure`,
  `Generator.GeneratedKeepsArtifactOnError`).
- With no I/O fault, a resource with usable networks, whose id and
  timestamp hold no line boundary, is published
  (`Generator.GeneratedWithoutFaults`).
- `generate_all` touches no file outside its own artifacts and temporary
  files, and stops at the first failure (`Generator.GeneratedAllFrame`,
  `Generator.RunAllStops`).

## Model

| member | source | states |
|---|---|---|
| Values.Get | generator/core.py:41-42 | `dict.get`: a non-mapping or an unbound key yields `None`; a bound key yields its value |
| Values.Iterate | generator/core.py:74 | what `for item in prefixes` visits: a list's items, a string's characters, a mapping's keys; `None`, booleans and numbers are not iterable |
| Config.LoadResourceConfig | generator/core.py:38-48 | a config is returned iff the document is a mapping with a non-empty string `resource_id` and a non-empty list of strings `asns`, and then it holds exactly those; a non-mapping is an invalid structure; a bad id is reported before a bad ASN list; a mapping with a good id and a bad ASN list is an invalid ASN list |
| Feed.FetchJson | generator/core.py:51-63 | a response yields its decoded body iff the transport succeeded, the status is 200 and the body is JSON; otherwise the error names the transport failure, the status, or malformed JSON |
| Feed.PrefixOf | generator/core.py:75-78 | a string item is kept as is; a mapping item yields its `prefix` value iff it has that key; every other item is dropped |
| Feed.Kept | generator/core.py:73-79 | the collected entries, in order, at most one per item; `Feed.KeptMembership` and `Feed.KeptAppend` state which and in what order |
| Feed.KeptMembership | generator/core.py:73-79 | a value is in the extracted list iff some item of the payload yields it |
| Feed.KeptAppend | generator/core.py:73-79 | extraction keeps input order: extracting a concatenation concatenates the extractions |
| Feed.ExtractedPrefixes | generator/core.py:66-79 | a missing, non-mapping or falsy `data.prefixes` is rejected as empty prefixes; a truthy non-iterable one is a type error; otherwise the result is the kept items of what iterating it yields |
| Feed.ExtractPrefixes | generator/core.py:66-79 | the loop that appends to `result` computes exactly `ExtractedPrefixes` |
| Feed.EmptyListRejected | generator/core.py:70-71 | an empty prefix list is rejected as empty prefixes |
| Ipv4.Masked | generator/core.py:86 | `strict=False` clears the host bits: the result is a valid network within one block of the address and equals the address when no host bit is set |
| Ipv4.OctetsRoundTrip | generator/core.py:86 | an address is recovered from its four bytes |
| Ipv4.FromOctetsRoundTrip | generator/core.py:97 | bytes to address to bytes is the identity, so an address determines its four printed bytes |
| Ipv4.ParseOctet | generator/core.py:86 | a byte is accepted iff it has one to three ASCII digits, no leading zero except "0" itself, and value at most 255 |
| Ipv4.ParsePrefixLen | generator/core.py:86 | a prefix length is accepted iff it is ASCII digits with value at most 32, leading zeros allowed, and its value is the decimal value of those digits ("024" is 24) |
| Ipv4.ParseAddress | generator/core.py:86 | a text is an address iff it has exactly four '.'-separated parts, each an accepted byte, and the address is built from those bytes, most significant first |
| Ipv4.ParseNetwork | generator/core.py:86 | a text is accepted iff it has at most one '/', a dotted-quad address before it, and a valid prefix length after it if there is one; it yields the address with its host bits cleared (`strict=False`), as a /32 when no length is given |
| Ipv4.NetworkOfValue | generator/core.py:84-90 | a string item is parsed as a network; an integer in 0..2^32-1 is that address as a /32 and any other integer is rejected; `True`/`False` are 0.0.0.1/32 and 0.0.0.0/32; `None`, lists and mappings are never IPv4; every network produced is valid |
| Ipv4.ParseDottedQuad | generator/core.py:86 | parsing `str()` of an address gives the address back |
| Ipv4.ParseAddressCanonical | generator/core.py:86 | the strict address parser accepts only the canonical text of the address it yields |
| Ipv4.ParseOctetCanonical | generator/core.py:86 | every accepted byte text is the shortest decimal form of its value |
| Ipv4.ParseFormat | generator/core.py:97 | parsing `str(net)` gives the network back |
| Ipv4.ParseMasksHostBits | generator/core.py:86 | any dotted quad with any prefix length 0..32 is accepted, and its host bits are cleared rather than rejected |
| Ipv4.ParseBareAddress | generator/core.py:86 | a dotted quad without a length is the /32 network of that address |
| Ipv4.DottedQuad | generator/core.py:97 | `str()` of an address holds only digits and dots; `Ipv4.ParseDottedQuad` proves `ParseAddress` is its inverse |
| Ipv4.Format | generator/core.py:120 | `str(net)`: only digits, dots and '/'; `Ipv4.FormatCanonical` and `Ipv4.FormatUnique` pin it to the one text with the strict dotted quad of the network address and the shortest decimal prefix length |
| Ipv4.FormatCanonical | generator/core.py:120 | the printed text splits at '/' into exactly two parts: the strict dotted quad of the network address (no host bits, no leading zeros) and the prefix length in shortest decimal form |
| Ipv4.FormatUnique | generator/core.py:120 | any text with that split is exactly the printed text, so `str(net)` is fully determined |
| Ipv4.KeyLess | generator/core.py:98 | the sort key `(int(network_address), prefixlen)` compared lexicographically; `Ipv4.KeyLessStrictTotal` proves it a strict total order |
| Ipv4.KeyLessStrictTotal | generator/core.py:98 | the sort key is irreflexive, transitive and total on distinct networks, so the sorted order is unique |
| Ipv4.FormatInjective | generator/core.py:97 | two valid networks have the same text iff they are equal, so deduplicating by `str(net)` deduplicates networks |
| Normalize.Ipv4NetworksOf | generator/core.py:82-90 | the IPv4 networks of the entries, in order, all valid and at most one per entry; `Normalize.Ipv4NetworksMembership` states which |
| Normalize.Ipv4NetworksMembership | generator/core.py:84-90 | a network is in the result iff some input item parses to it as IPv4 |
| Normalize.Ipv4NetworksAppend | generator/core.py:84-90 | filtering keeps input order: filtering a concatenation concatenates the filtered parts |
| Normalize.NormalizeIpv4 | generator/core.py:82-93 | the loop returns the IPv4 networks of the input in order, and fails with "no IPv4 prefixes" exactly when there are none |
| Normalize.Insert | generator/core.py:98 | inserting into a strictly increasing list keeps it strictly increasing and adds exactly the new element |
| Normalize.DedupSort | generator/core.py:96-98 | the result is strictly increasing by (address, prefix length), hence duplicate-free, and holds exactly the input's networks |
| Normalize.HeadIsLeast | generator/core.py:98 | the first element of a sorted result is below every other element |
| Normalize.SortedUnique | generator/core.py:96-98 | two strictly increasing lists with the same elements are equal |
| Normalize.DedupSortCanonical | generator/core.py:96-98 | the result depends only on the set of input networks, and deduplicating twice changes nothing |
| Normalize.DedupSortExample | generator/core.py:96-98 | 1.1.2.0/24, 1.1.1.0/24, 1.1.1.0/25, 1.1.1.0/24 becomes 1.1.1.0/24, 1.1.1.0/25, 1.1.2.0/24 |
| Rsc.RemoveLineIsCommand | generator/core.py:114-116 | the remove line is a command (non-empty, not a comment) and not an add command |
| Rsc.AddLinesSnoc | generator/core.py:117-122 | each loop step appends the add command of the next network |
| Rsc.RenderedLinesFront | generator/core.py:107-117 | the rendering has 6 + n lines: the five header lines, then the remove line |
| Rsc.RenderRsc | generator/core.py:106-123 | the loop that builds `lines` produces exactly the header, the remove line and one add line per network, joined by "\n" with a final "\n" |
| Rsc.FirstCommand | generator/core.py:134-137 | the result is `None` iff no line is a non-empty non-comment; otherwise it is the first such line |
| Rsc.FirstCountLine | generator/core.py:141 | the result is `None` iff no line starts with "# count="; otherwise it is the first such line |
| Rsc.AddLinesOf | generator/core.py:149-151 | the add commands are exactly the lines starting with the add prefix |
| Rsc.AddLinesOfAppend | generator/core.py:149-151 | collecting add commands keeps line order |
| Rsc.CheckLines | generator/core.py:134-159 | a "no add lines" verdict means there are none; a "count mismatch" verdict means the count header states a different number |
| Rsc.SelfCheckRsc | generator/core.py:126-131 | text without the remove line is rejected with "remove line missing" |
| Rsc.FirstCommandMeans | generator/core.py:134-139 | the first-command test passes iff no command precedes the remove line |
| Rsc.CountHeaderMeans | generator/core.py:141-147 | the count parse yields n iff the first count header states n |
| Rsc.AddsTargetListMeans | generator/core.py:152-154 | the `$AddressList` test passes iff every add command contains `list=$AddressList` |
| Rsc.CheckLinesMeansAccepted | generator/core.py:133-159 | the line checks pass iff no command precedes the remove line, the first count header states the number of add commands, every add command targets `$AddressList`, and there is at least one |
| Rsc.SelfCheckMeansAccepted | generator/core.py:126-159 | the self-check passes iff the text holds the remove line and its lines satisfy all the conditions above |
| Rsc.AddLineFacts | generator/core.py:119-122 | every add line is an add command, contains `list=$AddressList` and has no line boundary when the id has none |
| Rsc.CountLineFacts | generator/core.py:111 | the rendered count header is a count line whose value `int(...strip())` reads back as the count |
| Rsc.HeaderIsComments | generator/core.py:107-113 | every header line is a comment or blank |
| Rsc.HeaderCountValue | generator/core.py:111 | the fourth header line states the number of networks |
| Rsc.RenderedAddLines | generator/core.py:117-123 | the add commands of a rendering are exactly one add line per network, in order |
| Rsc.RenderedRemoveFirst | generator/core.py:107-117 | in a rendering, no command precedes the remove line |
| Rsc.RenderedCountHeader | generator/core.py:107-113 | in a rendering, the first count header states the number of networks |
| Rsc.RenderedTextLines | generator/core.py:123 | `splitlines` of the rendered text gives back its lines when the id and timestamp have no line boundary |
| Rsc.RenderedContainsRemove | generator/core.py:114-123 | the rendered text contains the remove line |
| Rsc.RenderedText | generator/core.py:106-123 | the header, the remove line and one add line per network, joined by "\n" with a final "\n"; the `Rsc.Rendered*` lemmas state its shape |
| Rsc.RenderedTextShape | generator/core.py:123 | with an id and timestamp free of line boundaries, the rendered text holds no '\r' and ends with exactly one "\n" |
| Rsc.RenderedAddsTargetList | generator/core.py:119-122 | every rendered add line targets `$AddressList` |
| Rsc.RenderThenCheck | generator/core.py:106-159 | for at least one network and an id and timestamp without line boundaries, the self-check passes on the rendering |
| Rsc.CheckLinesWithoutAdds | generator/core.py:149-157 | with the first two checks passed and no add command, the verdict is "add_count < 1" |
| Rsc.RenderEmptyRejected | generator/core.py:106-157 | rendering an empty list yields a file the self-check rejects with "add_count < 1" |
| Text.SplitLines | generator/core.py:133 | no resulting line holds a line boundary |
| Text.SplitLinesOfJoined | generator/core.py:123 | joining boundary-free lines with "\n" and adding a final "\n" splits back into those lines |
| Text.StripMeaning | generator/core.py:145 | `strip()` leaves no white space at either end, and leaves text without white space unchanged |
| Text.ParseInt | generator/core.py:145 | `int()` accepts exactly an optional sign followed by ASCII digits, and its value is the decimal value of the digits, negated after '-' |
| Text.ParseIntOfDecimal | generator/core.py:111 | `int(str(n).strip())` is n |
| Text.DecimalRoundTrip | generator/core.py:111 | the value of `str(n)` is n |
| Text.DecimalCanonical | generator/core.py:120 | digits with no leading zero (other than "0") are the shortest decimal form of their value: `str(int(t)) == t` |
| Text.AfterFirst | generator/core.py:145 | `split("=", 1)[1]` is the text after the first '=' |
| Text.JoinContainsPart | generator/core.py:123 | each line occurs in the joined text |
| Text.SortedNames | generator/core.py:203 | `sorted` lists every file name exactly once, in strictly increasing code-point order |
| Text.BelowTransitive | generator/core.py:203 | the file-name order is transitive |
| Text.BelowTotal | generator/core.py:203 | the file-name order is total on distinct names |
| Generator.TmpIsNotFinal | generator/core.py:182-183 | a temporary path never names an artifact |
| Generator.FetchPrefixesForAsn | generator/core.py:101-103 | the registry's answer for one ASN: an HTTP-level error is returned unchanged, otherwise the payload's prefixes are extracted |
| Generator.Gathered | generator/core.py:175-177 | the prefixes of all ASNs concatenated in config order, or the first error; `Generator.GatheredOk`, `Generator.GatheredMembership` and `Generator.GatheredStops` state its meaning |
| Generator.GatheredOk | generator/core.py:175-177 | gathering succeeds iff every ASN's fetch succeeds |
| Generator.GatheredMembership | generator/core.py:175-177 | the gathered prefixes are exactly those the ASNs' fetches returned |
| Generator.GatheredStops | generator/core.py:175-177 | after the first failing ASN, no further ASN affects the outcome |
| Generator.GatherPrefixes | generator/core.py:175-177 | the loop that extends `all_prefixes` computes exactly the gathering |
| Generator.ReadConfig | generator/core.py:33-36 | an unreadable config file is reported as a read failure; a readable one is validated |
| Generator.PreparedNetworks | generator/core.py:166-179 | the networks `generate_resource` renders, or the error it raises before writing; `Generator.PreparedNetworksOk` and `Generator.PreparedNetworksMeaning` state its meaning |
| Generator.PreparedNetworksOk | generator/core.py:166-179 | the networks are prepared iff the config file exists, loads, declares the id it is named after, every ASN's fetch succeeds and some prefix is IPv4; otherwise the error is that of the first failing step: `ConfigNotFound`, the load error, `ResourceIdMismatch`, the first fetch error, `NoIpv4Prefixes` |
| Generator.PreparedNetworksMeaning | generator/core.py:167-179 | what gets rendered comes from a config whose id names its file, and is a non-empty, strictly increasing list holding exactly the IPv4 networks the ASNs announce |
| Generator.Prepared | generator/core.py:166-180 | the artifact text: the prepared networks rendered with the resource id and the clock reading; `Generator.GeneratedWithoutFaults` proves it passes the self-check |
| Generator.Published | generator/core.py:185-192 | the outcome and `dist/` after the `try`/`except` block: on success the temporary file's text is moved to the final path, on failure the temporary file is removed and a write failure reported; `Generator.PublishedSuccess`, `Generator.PublishedFailure` and `Generator.PublishedOnlyChecked` state its meaning |
| Generator.PublishedSuccess | generator/core.py:185-188 | a successful publication returns the final path, which holds exactly the text that was read back (the written contents when nobody rewrote the temporary file), with no temporary file left and every other file unchanged |
| Generator.PublishedFailure | generator/core.py:185-192 | a failed publication reports a write failure for the final path, removes the temporary file and changes nothing else |
| Generator.PublishedOnlyChecked | generator/core.py:185-188 | nothing is published unless the write succeeded, the text read back passed the self-check and the rename succeeded; the published file itself passes the self-check |
| Generator.Generated | generator/core.py:162-194 | an error before publishing leaves `dist/` unchanged, otherwise the rendering is published; `Generator.GeneratedKeepsArtifactOnError`, `Generator.GeneratedWithoutFaults` and `Generator.GeneratedFrame` state its meaning |
| Generator.GeneratedKeepsArtifactOnError | generator/core.py:162-194 | any error in `generate_resource` leaves the final artifact as it was |
| Generator.GeneratedWithoutFaults | generator/core.py:162-194 | with no I/O fault and usable networks, `generate_resource` publishes the rendering at the final path |
| Generator.ForeignIsNotOurs | generator/core.py:182-183 | a file that is neither an artifact nor a temporary file is never the target of a resource's paths |
| Generator.PublishedFrame | generator/core.py:185-192 | publication removes no artifact and touches no foreign file |
| Generator.GeneratedFrame | generator/core.py:162-194 | `generate_resource` removes no artifact and touches no foreign file |
| Generator.GenerateOne | generator/core.py:204-205 | one step of `generate_all`: load the globbed file, then generate the resource whose id it declares; `Generator.GenerateOneKeeps` states its frame |
| Generator.GenerateOneKeeps | generator/core.py:203-205 | one step of `generate_all` removes no artifact, touches no foreign file, and returns a present artifact |
| Generator.YamlNames | generator/core.py:203 | the globbed names are exactly the files of `resources/` ending in ".yaml" |
| Generator.RunAll | generator/core.py:202-205 | the steps on the names in turn, collecting the returned paths and stopping at the first error; `Generator.RunAllFrame` and `Generator.RunAllStops` state its meaning |
| Generator.GeneratedAll | generator/core.py:197-207 | a missing `resources/` is an error; otherwise `RunAll` over the sorted YAML names; `Generator.GeneratedAllFrame` states its meaning |
| Generator.RunAllFrame | generator/core.py:202-207 | a run of such steps removes no artifact, touches no foreign file, and on success returns one present artifact per name |
| Generator.GeneratedAllFrame | generator/core.py:197-207 | `generate_all` removes no artifact and touches no foreign file; on success it returns one present artifact per YAML file |
| Generator.RunAllStops | generator/core.py:203-205 | after the first failing file, later files are never processed |
| Generator.Disk.WriteText | generator/core.py:186 | a write binds the path to the text, or changes nothing when it raises |
| Generator.Disk.ReadText | generator/core.py:187 | the read returns the text the file holds on disk, or nothing when it raises |
| Generator.Disk.Interfere | generator/core.py:186-187 | between the write and the read back, another process may rewrite the temporary file; the file then holds the new text |
| Generator.Disk.Replace | generator/core.py:188 | a rename moves the source's contents to the destination, or changes nothing when it raises |
| Generator.Disk.Unlink | generator/core.py:190-191 | the path is gone afterwards |
| Generator.Disk.CheckedWrite | generator/core.py:185-187 | write, read back and self-check report the first failure; unless the write raised, the temporary file holds the text that was read back and checked |
| Generator.Disk.Publish | generator/core.py:185-192 | the `try`/`except` block returns and leaves `dist/` exactly as `Published` describes: the rename moves the checked text of the temporary file |
| Generator.Disk.GenerateResource | generator/core.py:162-194 | `generate_resource` returns and leaves `dist/` exactly as `Generated` describes |
| Generator.Disk.GenerateFromFile | generator/core.py:204-205 | one iteration of `generate_all` matches one step of `GeneratedAll` |
| Generator.Disk.GenerateAll | generator/core.py:197-207 | the loop over sorted config files returns and leaves `dist/` exactly as `GeneratedAll` describes: a missing `resources/` is an error, files are processed in sorted order, and the first error ends the run |

## Left out

- HTTP is not modelled: `requests.get`, the URL, the query parameters and the 10-second timeout. The registry is a function from ASN to a response, a transport failure or a reply with a status and an optionally decodable body.
- JSON decoding (`resp.json()`) and YAML decoding (`yaml.safe_load`) are not modelled. Documents arrive already decoded as `Values.Value`, and a config file that cannot be read or parsed is `None`.
- Values.Value has integers only, so fractional JSON numbers are not modelled. A mapping is its list of bindings, and the decoders are taken to give each key once.
- The clock (`_iso_utc_now`) is a parameter, `Env.clock`, read once per resource id.
- File-system mechanics are left out:
  - `mkdir` of `dist/`;
  - the directories themselves;
  - the atomicity of `os.replace`.
- The file system is modelled as follows:
  - `resources/` is a map from file name to document;
  - `dist/` is a map from file name to text;
  - a rename is one map update;
  - paths are file names within their directory.
- Generator.Generated, Generator.GeneratedAll: a resource id is used as a plain file name. The source joins it to `resources/` and `dist/` as a path. An id holding '/' then names a path, not a file: `resources/a.yaml` declaring the id `../resources/a` finds itself as `resources/../resources/a.yaml`, and the source writes `dist/../resources/a.rsc`, outside `dist/`. The model looks such an id up as a file name of `resources/`, finds no config, and reports `ConfigNotFound`.
- I/O failures are parameters, `Env.faults`, one set per resource id. A write that raises is taken to leave no new file. `unlink(missing_ok=True)` is taken to succeed.
- `pathlib` glob details are left out: directories named `*.yaml` and other non-regular files. A YAML file is any name ending in ".yaml".
- Concurrency is modelled only as `ReadBack.Altered`: another process rewriting the temporary file between its write and its read back. Nothing else changes `dist/` during a run.
- Ipv4.ParseNetwork: `ipaddress` also accepts netmask and hostmask suffixes (`a.b.c.d/255.255.255.0`), bytes and tuple inputs. These count as "not IPv4" here, so the model may drop a prefix that the source would keep.
- Text.ParseInt: `int()` also accepts underscores between digits and non-ASCII decimal digits. These are not modelled. The count header the renderer writes uses neither.
- Text.ParseInt: CPython 3.11 and later (and the 3.7-3.10 security releases) raise `ValueError` for a decimal text of more than 4300 digits. The model has no such limit. For such a count header the source reports "count header invalid", while the model reads the number and reports a count mismatch, so both reject the artifact.
- Oracles (`Env.registry`, `Env.clock`, `Env.faults`) are functions of the ASN or the id, so repeated requests get identical answers. In the source, a second fetch of the same ASN, or a second generation of the same id in one `generate_all` run, may see a different registry answer, clock reading or I/O outcome.
- Rsc.RenderThenCheck: this requires the resource id and the timestamp to contain no line boundary character. Otherwise `splitlines` cuts the rendered lines, and the self-check may reject the source's own output.
- `generator/__main__.py` (argparse glue, printing, exit codes) is not part of this model.
- Behaviour that appears only in the tests is not part of this model, because the shown `generator/core.py` lacks it:
  - URL feed formats;
  - cache and stale-cache fallback;
  - retries;
  - the `:global AddressList` rendering;
  - fatal handling of malformed CIDR lines.
- The error message texts are not modelled. Each distinct `GeneratorError` (and the `TypeError` of a non-iterable `prefixes`) is a constructor of `Errors.Error`.

=== FILE: config.dfy ===
/** Validation of an already-parsed resource config document. Reading the
    file and YAML decoding are outside the model. */
module Config {
  import opened Wrappers
  import opened Values
  import opened Errors

  /** One managed address list: its id and the ASNs whose prefixes it holds,
      in query order. */
  datatype ResourceConfig = ResourceConfig(resourceId: string, asns: seq<string>)

  /** A non-empty list of strings. */
  predicate IsAsnList(v: Value) {
    v.Arr? && v.items != [] && forall i :: 0 <= i < |v.items| ==> v.items[i].Str?
  }

  /** The strings of a list of strings, in order. */
  function Strings(items: seq<Value>): (r: seq<string>)
    requires forall i :: 0 <= i < |items| ==> items[i].Str?
    ensures |r| == |items| && forall i :: 0 <= i < |items| ==> items[i] == Str(r[i])
  {
    seq(|items|, i requires 0 <= i < |items| => items[i].s)
  }

  /** The checks of `load_resource_config` on the decoded document, in the
      order the source makes them. */
  function LoadResourceConfig(data: Value): (r: Result<ResourceConfig, Error>)
    ensures r.Ok? <==>
      data.Obj? && Get(data, "resource_id").Str? && Get(data, "resource_id").s != ""
      && IsAsnList(Get(data, "asns"))
    ensures r.Ok? ==> Get(data, "resource_id") == Str(r.value.resourceId) && r.value.resourceId != ""
    ensures r.Ok? ==> |r.value.asns| >= 1 && Get(data, "asns").items == seq(|r.value.asns|, i requires 0 <= i < |r.value.asns| => Str(r.value.asns[i]))
    ensures !data.Obj? ==> r == Err(InvalidStructure)
    ensures (data.Obj? && !(Get(data, "resource_id").Str? && Get(data, "resource_id").s != ""))
              ==> r == Err(InvalidResourceId)
    ensures (data.Obj? && Get(data, "resource_id").Str? && Get(data, "resource_id").s != ""
             && !IsAsnList(Get(data, "asns")))
              ==> r == Err(InvalidAsns)
  {
    if !data.Obj? then Err(InvalidStructure)
    else
      var resourceId := Get(data, "resource_id");
      var asns := Get(data, "asns");
      if !Truthy(resourceId) || !resourceId.Str? then Err(InvalidResourceId)
      else if !Truthy(asns) || !asns.Arr? || !(forall i :: 0 <= i < |asns.items| ==> asns.items[i].Str?) then Err(InvalidAsns)
      else
        var list := Strings(asns.items);
        assert asns.items == seq(|list|, i requires 0 <= i < |list| => Str(list[i]));
        Ok(ResourceConfig(resourceId.s, list))
  }
}

=== FILE: feed.dfy ===
/** The registry fetch for one ASN: the HTTP outcome decided into a decoded
    payload or an error, and the walk over `data.prefixes` that collects the
    raw prefix entries. The HTTP request and JSON decoding are outside the
    model; a `Response` stands for their outcome. */
module Feed {
  import opened Wrappers
  import opened Values
  import opened Errors

  /** The outcome of one registry request: the transport failed (including a
      timeout), or a reply with a status code and a body that decoded to a
      value or (`None`) was not valid JSON. */
  datatype Response =
    | TransportFailure
    | Reply(status: int, body: Option<Value>)

  /** `_fetch_json`: transport failure, a non-200 status and an undecodable
      body are errors, checked in that order; otherwise the decoded body. */
  function FetchJson(resp: Response): (r: Result<Value, Error>)
    ensures r.Ok? <==> resp.Reply? && resp.status == 200 && resp.body.Some?
    ensures r.Ok? ==> r.value == resp.body.value
    ensures resp.TransportFailure? ==> r == Err(RequestFailed)
    ensures resp.Reply? && resp.status != 200 ==> r == Err(Non200(resp.status))
    ensures resp.Reply? && resp.status == 200 && resp.body.None? ==> r == Err(MalformedJson)
  {
    match resp
    case TransportFailure => Err(RequestFailed)
    case Reply(status, body) =>
      if status != 200 then Err(Non200(status))
      else if body.None? then Err(MalformedJson)
      else Ok(body.value)
  }

  /** What one entry of `prefixes` contributes: a string is kept as it is, a
      dict with a "prefix" key contributes that key's value (whatever its
      type), anything else nothing. */
  function PrefixOf(item: Value): (r: Option<Value>)
    ensures item.Str? ==> r == Some(item)
    ensures r.Some? && !item.Str? ==> HasKey(item, "prefix") && r.value == Get(item, "prefix")
    ensures r.None? <==> !item.Str? && !HasKey(item, "prefix")
  {
    if item.Str? then Some(item)
    else if HasKey(item, "prefix") then Some(Get(item, "prefix"))
    else None
  }

  /** The contributions of `items`, in order. */
  function Kept(items: seq<Value>): (r: seq<Value>)
    ensures |r| <= |items|
    decreases |items|
  {
    if items == [] then []
    else
      var init := Kept(items[..|items| - 1]);
      match PrefixOf(items[|items| - 1])
      case Some(p) => init + [p]
      case None => init
  }

  /** Every kept value comes from some entry and every contributing entry is
      kept. */
  lemma {:induction false} KeptMembership(items: seq<Value>, v: Value)
    ensures v in Kept(items) <==> exists i :: 0 <= i < |items| && PrefixOf(items[i]) == Some(v)
    decreases |items|
  {
    if items != [] {
      var init := items[..|items| - 1];
      KeptMembership(init, v);
      if v in Kept(items) {
        if v in Kept(init) {
          var i :| 0 <= i < |init| && PrefixOf(init[i]) == Some(v);
          assert items[i] == init[i];
        }
      } else {
        forall i | 0 <= i < |items| ensures PrefixOf(items[i]) != Some(v) {
          if i < |init| {
            assert items[i] == init[i];
          }
        }
      }
    }
  }

  /** Collection keeps entry order: it distributes over concatenation. */
  lemma {:induction false} KeptAppend(a: seq<Value>, b: seq<Value>)
    ensures Kept(a + b) == Kept(a) + Kept(b)
    decreases |b|
  {
    if b == [] {
      assert a + b == a;
    } else {
      var b' := b[..|b| - 1];
      assert (a + b)[..|a + b| - 1] == a + b';
      KeptAppend(a, b');
    }
  }

  /** `payload.get("data").get("prefixes")`, with `None` standing in for any
      step that is not a dict. */
  function PrefixesField(payload: Value): (r: Value)
    ensures !payload.Obj? ==> r == Null
  {
    var data := Get(payload, "data");
    Get(data, "prefixes")
  }

  /** What `_extract_prefixes` returns or raises for a decoded payload. */
  function ExtractedPrefixes(payload: Value): (r: Result<seq<Value>, Error>)
    ensures !Truthy(PrefixesField(payload)) ==> r == Err(EmptyPrefixes)
    ensures Truthy(PrefixesField(payload)) && Iterate(PrefixesField(payload)).None? ==> r == Err(NotIterable)
    ensures (Truthy(PrefixesField(payload)) && Iterate(PrefixesField(payload)).Some?)
              ==> r == Ok(Kept(Iterate(PrefixesField(payload)).value))
  {
    var prefixes := PrefixesField(payload);
    if !Truthy(prefixes) then Err(EmptyPrefixes)
    else match Iterate(prefixes)
      case None => Err(NotIterable)
      case Some(items) => Ok(Kept(items))
  }

  /** `_extract_prefixes`: guard, then the loop that appends each string
      entry and the "prefix" value of each dict entry that has one. */
  method ExtractPrefixes(payload: Value) returns (r: Result<seq<Value>, Error>)
    ensures r == ExtractedPrefixes(payload)
  {
    var data := if payload.Obj? then Get(payload, "data") else Null;
    var prefixes := if data.Obj? then Get(data, "prefixes") else Null;
    if !Truthy(prefixes) {
      return Err(EmptyPrefixes);
    }
    var items := Iterate(prefixes);
    if items.None? {
      return Err(NotIterable);
    }
    var result: seq<Value> := [];
    var i := 0;
    while i < |items.value|
      invariant 0 <= i <= |items.value|
      invariant result == Kept(items.value[..i])
    {
      assert items.value[..i + 1][..i] == items.value[..i];
      var item := items.value[i];
      if item.Str? {
        result := result + [item];
      } else if item.Obj? && HasKey(item, "prefix") {
        result := result + [Get(item, "prefix")];
      }
      i := i + 1;
    }
    assert items.value[..i] == items.value;
    return Ok(result);
  }

  /** A registry payload whose `data.prefixes` is an empty list is an error,
      not an empty feed. */
  lemma EmptyListRejected(payload: Value)
    requires PrefixesField(payload) == Arr([])
    ensures ExtractedPrefixes(payload) == Err(EmptyPrefixes)
  {
  }
}

=== FILE: generator.dfy ===
/** One run of the generator: `generate_resource` turns a resource config
    into a published `dist/<id>.rsc`, and `generate_all` does that for every
    config in `resources/`, in file-name order, stopping at the first error.

    The outside world is explicit. The `resources/` directory is a map from
    file name to its parsed YAML document (`None` for a file that cannot be
    read or parsed). `dist/` is the `files` map of a `Disk`, keyed by file
    name. The registry, the clock and the I/O failures are oracles in an
    `Env`. */
module Generator {
  import opened Wrappers
  import opened Text
  import opened Values
  import opened Errors
  import opened Ipv4
  import opened Normalize
  import opened Feed
  import opened Config
  import opened Rsc

  /** What happens to the temporary file between the write and the read
      back. */
  datatype ReadBack =
    | Faithful               // nothing: the read returns the text just written
    | ReadFails              // the read raises
    | Altered(text: string)  // another process rewrote the file with `text`

  /** The I/O failures one publication meets: the write raises, the read
      back, the rename raises. */
  datatype IoFaults = IoFaults(writeFails: bool, readBack: ReadBack, renameFails: bool)

  const NoFaults := IoFaults(false, Faithful, false)

  /** The oracles of a run: the registry's response per ASN, the clock
      reading taken when a resource is rendered, and the I/O faults met
      while publishing it. */
  datatype Env = Env(registry: string -> Response, clock: string -> string, faults: string -> IoFaults)

  /** The outcome of a step and the contents of `dist/` after it. */
  datatype Step<T> = Step(result: Result<T, Error>, files: map<string, string>)

  function ConfigName(id: string): string { id + ".yaml" }
  function FinalPath(id: string): string { id + ".rsc" }
  function TmpPath(id: string): string { id + ".rsc.tmp" }

  /** A temporary file never has the name of a published artifact. */
  lemma TmpIsNotFinal(id: string, other: string)
    ensures TmpPath(id) != FinalPath(other)
    ensures EndsWith(TmpPath(id), ".tmp") && !EndsWith(FinalPath(other), ".tmp")
  {
    var t := TmpPath(id);
    var f := FinalPath(other);
    assert t[|t| - 1] == 'p' && f[|f| - 1] == 'c';
    assert t[|t| - 4..] == ".tmp";
    assert f[|f| - 4..][3] == 'c';
  }

  /** `fetch_prefixes_for_asn`: the registry's answer for `asn`, decided
      and walked. */
  function FetchPrefixesForAsn(registry: string -> Response, asn: string): (r: Result<seq<Value>, Error>)
    ensures registry(asn).TransportFailure? ==> r == Err(RequestFailed)
    ensures registry(asn).Reply? && registry(asn).status != 200 ==> r == Err(Non200(registry(asn).status))
    ensures registry(asn) == Reply(200, None) ==> r == Err(MalformedJson)
    ensures (registry(asn).Reply? && registry(asn).status == 200 && registry(asn).body.Some?)
              ==> r == ExtractedPrefixes(registry(asn).body.value)
  {
    match FetchJson(registry(asn))
    case Err(e) => Err(e)
    case Ok(payload) => ExtractedPrefixes(payload)
  }

  /** `fetch_prefixes_for_asn` against `registry`, as a function of the ASN. */
  function FetchFor(registry: string -> Response): string -> Result<seq<Value>, Error> {
    asn => FetchPrefixesForAsn(registry, asn)
  }

  /** The prefixes of all `asns`, concatenated in order; the first ASN that
      fails ends the run with its error. */
  function Gathered(fetch: string -> Result<seq<Value>, Error>, asns: seq<string>): (r: Result<seq<Value>, Error>)
    decreases |asns|
  {
    if asns == [] then Ok([])
    else
      match Gathered(fetch, asns[..|asns| - 1])
      case Err(e) => Err(e)
      case Ok(init) =>
        match fetch(asns[|asns| - 1])
        case Err(e) => Err(e)
        case Ok(more) => Ok(init + more)
  }

  /** Gathering succeeds exactly when every ASN's fetch does. */
  lemma {:induction false} GatheredOk(fetch: string -> Result<seq<Value>, Error>, asns: seq<string>)
    ensures Gathered(fetch, asns).Ok? <==>
            forall i :: 0 <= i < |asns| ==> fetch(asns[i]).Ok?
    decreases |asns|
  {
    if asns != [] {
      var init := asns[..|asns| - 1];
      GatheredOk(fetch, init);
      assert forall i :: 0 <= i < |init| ==> asns[i] == init[i];
    }
  }

  /** A successful gathering holds exactly the prefixes the fetches
      returned. */
  lemma {:induction false} GatheredMembership(fetch: string -> Result<seq<Value>, Error>, asns: seq<string>, v: Value)
    requires Gathered(fetch, asns).Ok?
    ensures v in Gathered(fetch, asns).value <==>
            exists i :: 0 <= i < |asns| && fetch(asns[i]).Ok?
                        && v in fetch(asns[i]).value
    decreases |asns|
  {
    if asns != [] {
      var init := asns[..|asns| - 1];
      var last := asns[|asns| - 1];
      GatheredMembership(fetch, init, v);
      GatheredOk(fetch, asns);
      if v in Gathered(fetch, asns).value {
        if v in Gathered(fetch, init).value {
          var i :| 0 <= i < |init| && fetch(init[i]).Ok?
                   && v in fetch(init[i]).value;
          assert asns[i] == init[i];
        } else {
          assert v in fetch(last).value;
        }
      } else {
        forall i | 0 <= i < |asns| && fetch(asns[i]).Ok?
          ensures v !in fetch(asns[i]).value
        {
          if i < |init| {
            assert asns[i] == init[i];
          }
        }
      }
    }
  }

  /** Once a prefix of the ASN list fails, the rest is never fetched: the
      whole gathering fails with the same error. */
  lemma {:induction false} GatheredStops(fetch: string -> Result<seq<Value>, Error>, asns: seq<string>, k: nat)
    requires k <= |asns|
    requires Gathered(fetch, asns[..k]).Err?
    ensures Gathered(fetch, asns) == Gathered(fetch, asns[..k])
    decreases |asns| - k
  {
    if k < |asns| {
      assert asns[..k + 1][..k] == asns[..k];
      GatheredStops(fetch, asns, k + 1);
    } else {
      assert asns[..k] == asns;
    }
  }

  /** The loop of `generate_resource` that fetches each ASN's prefixes and
      extends the running list with them. */
  method GatherPrefixes(registry: string -> Response, asns: seq<string>) returns (r: Result<seq<Value>, Error>)
    ensures r == Gathered(FetchFor(registry), asns)
  {
    var prefixes: seq<Value> := [];
    var i := 0;
    while i < |asns|
      invariant 0 <= i <= |asns|
      invariant Gathered(FetchFor(registry), asns[..i]) == Ok(prefixes)
    {
      assert asns[..i + 1][..i] == asns[..i];
      var payload := FetchJson(registry(asns[i]));
      if payload.Err? {
        assert Gathered(FetchFor(registry), asns[..i + 1]) == Err(payload.error);
        GatheredStops(FetchFor(registry), asns, i + 1);
        return Err(payload.error);
      }
      var fetched := ExtractPrefixes(payload.value);
      if fetched.Err? {
        assert Gathered(FetchFor(registry), asns[..i + 1]) == Err(fetched.error);
        GatheredStops(FetchFor(registry), asns, i + 1);
        return Err(fetched.error);
      }
      prefixes := prefixes + fetched.value;
      i := i + 1;
    }
    assert asns[..i] == asns;
    return Ok(prefixes);
  }

  /** `load_resource_config` on a file of `resources/`: a file that is
      absent or cannot be read or parsed fails the read. */
  function ReadConfig(resources: map<string, Option<Value>>, name: string): (r: Result<ResourceConfig, Error>)
    ensures (name !in resources || resources[name].None?) ==> r == Err(ConfigUnreadable(name))
    ensures name in resources && resources[name].Some? ==> r == LoadResourceConfig(resources[name].value)
  {
    if name !in resources then Err(ConfigUnreadable(name))
    else match resources[name]
      case None => Err(ConfigUnreadable(name))
      case Some(data) => LoadResourceConfig(data)
  }

  /** The networks `generate_resource` renders for `id`, or the error it
      raises before writing anything. */
  function PreparedNetworks(env: Env, resources: map<string, Option<Value>>, id: string): (r: Result<seq<Network>, Error>)
  {
    var name := ConfigName(id);
    if name !in resources then Err(ConfigNotFound(name))
    else match ReadConfig(resources, name)
      case Err(e) => Err(e)
      case Ok(config) =>
        if config.resourceId != id then Err(ResourceIdMismatch)
        else match Gathered(FetchFor(env.registry), config.asns)
          case Err(e) => Err(e)
          case Ok(prefixes) =>
            var networks := Ipv4NetworksOf(prefixes);
            if networks == [] then Err(NoIpv4Prefixes)
            else Ok(DedupSort(networks))
  }

  /** When `generate_resource` gets as far as writing: the config file
      exists, loads, names its own file, every ASN's fetch succeeds and some
      prefix is IPv4. Otherwise the first failing step's error is raised. */
  lemma PreparedNetworksOk(env: Env, resources: map<string, Option<Value>>, id: string)
    ensures var name := ConfigName(id);
      var config := ReadConfig(resources, name);
      var r := PreparedNetworks(env, resources, id);
      r.Ok? <==> (name in resources && config.Ok? && config.value.resourceId == id
                  && Gathered(FetchFor(env.registry), config.value.asns).Ok?
                  && Ipv4NetworksOf(Gathered(FetchFor(env.registry), config.value.asns).value) != [])
    ensures var name := ConfigName(id);
      name !in resources ==> PreparedNetworks(env, resources, id) == Err(ConfigNotFound(name))
    ensures var name := ConfigName(id);
      var config := ReadConfig(resources, name);
      (name in resources && config.Err?) ==> PreparedNetworks(env, resources, id) == Err(config.error)
    ensures var name := ConfigName(id);
      var config := ReadConfig(resources, name);
      (name in resources && config.Ok? && config.value.resourceId != id)
        ==> PreparedNetworks(env, resources, id) == Err(ResourceIdMismatch)
    ensures var name := ConfigName(id);
      var config := ReadConfig(resources, name);
      (name in resources && config.Ok? && config.value.resourceId == id
       && Gathered(FetchFor(env.registry), config.value.asns).Err?)
        ==> PreparedNetworks(env, resources, id) == Err(Gathered(FetchFor(env.registry), config.value.asns).error)
    ensures var name := ConfigName(id);
      var config := ReadConfig(resources, name);
      (name in resources && config.Ok? && config.value.resourceId == id
       && Gathered(FetchFor(env.registry), config.value.asns).Ok?
       && Ipv4NetworksOf(Gathered(FetchFor(env.registry), config.value.asns).value) == [])
        ==> PreparedNetworks(env, resources, id) == Err(NoIpv4Prefixes)
  {
  }

  /** What gets rendered: a non-empty, strictly ascending list of valid
      networks that holds exactly the IPv4 networks the config's ASNs
      announce, for a config whose `resource_id` names its own file. */
  lemma PreparedNetworksMeaning(env: Env, resources: map<string, Option<Value>>, id: string, n: Network)
    requires PreparedNetworks(env, resources, id).Ok?
    ensures ConfigName(id) in resources
    ensures ReadConfig(resources, ConfigName(id)).Ok?
    ensures ReadConfig(resources, ConfigName(id)).value.resourceId == id
    ensures Gathered(FetchFor(env.registry), ReadConfig(resources, ConfigName(id)).value.asns).Ok?
    ensures var networks := PreparedNetworks(env, resources, id).value;
      |networks| >= 1 && StrictlyIncreasing(networks) && (forall m :: m in networks ==> Valid(m))
      && (n in networks <==>
          var prefixes := Gathered(FetchFor(env.registry), ReadConfig(resources, ConfigName(id)).value.asns).value;
          exists i :: 0 <= i < |prefixes| && NetworkOfValue(prefixes[i]) == Some(n))
  {
    var config := ReadConfig(resources, ConfigName(id)).value;
    var prefixes := Gathered(FetchFor(env.registry), config.asns).value;
    var found := Ipv4NetworksOf(prefixes);
    Ipv4NetworksMembership(prefixes, n);
    assert found[0] in found;
    assert found[0] in DedupSort(found);
  }

  /** The artifact text `generate_resource` writes for `id`. */
  function Prepared(env: Env, resources: map<string, Option<Value>>, id: string): Result<string, Error> {
    match PreparedNetworks(env, resources, id)
    case Err(e) => Err(e)
    case Ok(networks) => Ok(RenderedText(id, env.clock(id), networks))
  }

  /** What the temporary file holds when it is read back, `written` being
      the text the generator wrote. */
  function StoredText(back: ReadBack, written: string): string {
    if back.Altered? then back.text else written
  }

  /** The text the read of the freshly written temporary file returns: what
      the file holds, unless the read raises. */
  function ReadBackText(back: ReadBack, written: string): Option<string> {
    if back.ReadFails? then None else Some(StoredText(back, written))
  }

  /** The first of write, read back and self-check that fails while
      publishing `contents` for `id`, if any. */
  function CheckedWriteFailure(id: string, contents: string, faults: IoFaults): Option<PublishCause> {
    if faults.writeFails then Some(WriteError)
    else match ReadBackText(faults.readBack, contents)
      case None => Some(ReadError)
      case Some(text) =>
        match SelfCheckRsc(id, text)
        case Fail(e) => Some(SelfCheckFailed(e))
        case Pass => None
  }

  /** The first step of the publication that fails, the rename included. */
  function PublishFailure(id: string, contents: string, faults: IoFaults): Option<PublishCause> {
    match CheckedWriteFailure(id, contents, faults)
    case Some(c) => Some(c)
    case None => if faults.renameFails then Some(RenameError) else None
  }

  /** Writing `contents` to `dist/` for `id`: write the temporary file,
      read it back, self-check it, rename it over the final file. The rename
      moves what the temporary file holds. Any failure removes the temporary
      file and is reported against the final path. */
  function Published(files: map<string, string>, id: string, contents: string, faults: IoFaults): Step<string> {
    var tmp := TmpPath(id);
    var final := FinalPath(id);
    match PublishFailure(id, contents, faults)
    case Some(c) => Step(Err(WriteFailed(final, c)), files - {tmp})
    case None => Step(Ok(final), (files - {tmp})[final := StoredText(faults.readBack, contents)])
  }

  /** Removing a key forgets whatever it was last bound to. */
  lemma RemoveAfterUpdate(files: map<string, string>, path: string, text: string)
    ensures files[path := text] - {path} == files - {path}
  {
  }

  /** Removing an absent key changes nothing. */
  lemma RemoveAbsent(files: map<string, string>, path: string)
    requires path !in files
    ensures files - {path} == files
  {
  }

  /** A successful publication leaves at the final path the text that was
      read back (the contents written, unless another process rewrote the
      temporary file), no temporary file, and every other file as it was. */
  lemma PublishedSuccess(files: map<string, string>, id: string, contents: string, faults: IoFaults)
    requires Published(files, id, contents, faults).result.Ok?
    ensures var after := Published(files, id, contents, faults).files;
      Published(files, id, contents, faults).result.value == FinalPath(id)
      && FinalPath(id) in after
      && Some(after[FinalPath(id)]) == ReadBackText(faults.readBack, contents)
      && (faults.readBack == Faithful ==> after[FinalPath(id)] == contents)
      && TmpPath(id) !in after
      && forall p :: p != FinalPath(id) && p != TmpPath(id) ==>
           (p in after <==> p in files) && (p in files ==> after[p] == files[p])
  {
    TmpIsNotFinal(id, id);
  }

  /** A failed publication leaves the previous artifact (or its absence)
      untouched, removes the temporary file, and changes nothing else. */
  lemma PublishedFailure(files: map<string, string>, id: string, contents: string, faults: IoFaults)
    requires Published(files, id, contents, faults).result.Err?
    ensures var after := Published(files, id, contents, faults).files;
      Published(files, id, contents, faults).result.error.WriteFailed?
      && Published(files, id, contents, faults).result.error.path == FinalPath(id)
      && TmpPath(id) !in after
      && forall p :: p != TmpPath(id) ==> (p in after <==> p in files) && (p in files ==> after[p] == files[p])
  {
  }

  /** Nothing is published unless the self-check accepted the text read back
      from the temporary file, and that text is what gets published. */
  lemma PublishedOnlyChecked(files: map<string, string>, id: string, contents: string, faults: IoFaults)
    requires Published(files, id, contents, faults).result.Ok?
    ensures !faults.writeFails && !faults.renameFails
    ensures ReadBackText(faults.readBack, contents).Some?
    ensures SelfCheckRsc(id, ReadBackText(faults.readBack, contents).value) == Pass
    ensures FinalPath(id) in Published(files, id, contents, faults).files
    ensures SelfCheckRsc(id, Published(files, id, contents, faults).files[FinalPath(id)]) == Pass
  {
  }

  /** `generate_resource(id)`: the outcome and `dist/` afterwards. */
  function Generated(env: Env, resources: map<string, Option<Value>>, id: string, files: map<string, string>): Step<string> {
    match Prepared(env, resources, id)
    case Err(e) => Step(Err(e), files)
    case Ok(contents) => Published(files, id, contents, env.faults(id))
  }

  /** A run that ends in an error leaves `dist/<id>.rsc` as it was. */
  lemma GeneratedKeepsArtifactOnError(env: Env, resources: map<string, Option<Value>>, id: string, files: map<string, string>)
    requires Generated(env, resources, id, files).result.Err?
    ensures var after := Generated(env, resources, id, files).files;
      (FinalPath(id) in after <==> FinalPath(id) in files)
      && (FinalPath(id) in files ==> after[FinalPath(id)] == files[FinalPath(id)])
  {
    TmpIsNotFinal(id, id);
  }

  /** With no I/O fault, a resource whose id and clock reading hold no line
      boundary is always published: the self-check never rejects the
      generator's own rendering. */
  lemma GeneratedWithoutFaults(env: Env, resources: map<string, Option<Value>>, id: string, files: map<string, string>)
    requires PreparedNetworks(env, resources, id).Ok?
    requires env.faults(id) == NoFaults
    requires NoLineBreaks(id) && NoLineBreaks(env.clock(id))
    ensures Generated(env, resources, id, files).result == Ok(FinalPath(id))
    ensures var after := Generated(env, resources, id, files).files;
      FinalPath(id) in after
      && after[FinalPath(id)] == RenderedText(id, env.clock(id), PreparedNetworks(env, resources, id).value)
  {
    var networks := PreparedNetworks(env, resources, id).value;
    var n := networks[0];
    PreparedNetworksMeaning(env, resources, id, n);
    RenderThenCheck(id, env.clock(id), networks);
  }

  /** `generate_all`'s step for one globbed file: load it, then generate the
      resource it names. */
  function GenerateOne(env: Env, resources: map<string, Option<Value>>, name: string, files: map<string, string>): Step<string> {
    match ReadConfig(resources, name)
    case Err(e) => Step(Err(e), files)
    case Ok(config) => Generated(env, resources, config.resourceId, files)
  }

  /** The step `generate_all` takes for each file, as a function of the file
      name and of `dist/` before it. */
  function StepFor(env: Env, resources: map<string, Option<Value>>): (string, map<string, string>) -> Step<string> {
    (name, files) => GenerateOne(env, resources, name, files)
  }

  /** `paths` put in front of the paths of a later successful step. */
  function PrependAll(paths: seq<string>, rest: Step<seq<string>>): (r: Step<seq<string>>)
    ensures r.files == rest.files && r.result.Ok? == rest.result.Ok?
    ensures paths == [] ==> r == rest
  {
    match rest.result
    case Ok(more) =>
      assert paths == [] ==> paths + more == more;
      Step(Ok(paths + more), rest.files)
    case Err(_) => rest
  }

  /** `step` on the files `names` in turn, stopping at the first error. */
  function RunAll(step: (string, map<string, string>) -> Step<string>, names: seq<string>, files: map<string, string>): Step<seq<string>>
    decreases |names|
  {
    if names == [] then Step(Ok([]), files)
    else
      var first := step(names[0], files);
      match first.result
      case Err(e) => Step(Err(e), first.files)
      case Ok(path) => PrependAll([path], RunAll(step, names[1..], first.files))
  }

  /** Prepending in two steps is prepending the concatenation. */
  lemma PrependAllTwice(a: seq<string>, b: seq<string>, rest: Step<seq<string>>)
    ensures PrependAll(a, PrependAll(b, rest)) == PrependAll(a + b, rest)
  {
    if rest.result.Ok? {
      assert a + (b + rest.result.value) == (a + b) + rest.result.value;
    }
  }

  /** `RunAll` from position `i` takes one step on `names[i]`. */
  lemma RunAllFrom(step: (string, map<string, string>) -> Step<string>, names: seq<string>, i: nat, files: map<string, string>)
    requires i < |names|
    ensures var first := step(names[i], files);
      RunAll(step, names[i..], files) ==
        if first.result.Err? then Step(Err(first.result.error), first.files)
        else PrependAll([first.result.value], RunAll(step, names[i + 1..], first.files))
  {
    assert names[i..][0] == names[i];
    assert names[i..][1..] == names[i + 1..];
  }

  /** One successful step of a loop over `names` that has produced
      `results` so far. */
  lemma RunAllStepOk(step: (string, map<string, string>) -> Step<string>, names: seq<string>, i: nat,
                     results: seq<string>, start: map<string, string>, before: map<string, string>)
    requires i < |names|
    requires RunAll(step, names, start) == PrependAll(results, RunAll(step, names[i..], before))
    requires step(names[i], before).result.Ok?
    ensures var first := step(names[i], before);
      RunAll(step, names, start) == PrependAll(results + [first.result.value], RunAll(step, names[i + 1..], first.files))
  {
    var first := step(names[i], before);
    RunAllFrom(step, names, i, before);
    PrependAllTwice(results, [first.result.value], RunAll(step, names[i + 1..], first.files));
  }

  /** A failing step ends a loop over `names` with that step's error. */
  lemma RunAllStepErr(step: (string, map<string, string>) -> Step<string>, names: seq<string>, i: nat,
                      results: seq<string>, start: map<string, string>, before: map<string, string>)
    requires i < |names|
    requires RunAll(step, names, start) == PrependAll(results, RunAll(step, names[i..], before))
    requires step(names[i], before).result.Err?
    ensures var first := step(names[i], before);
      RunAll(step, names, start) == Step(Err(first.result.error), first.files)
  {
    RunAllFrom(step, names, i, before);
  }

  /** A loop over `names` that has run to the end returns what it
      collected. */
  lemma RunAllDone(step: (string, map<string, string>) -> Step<string>, names: seq<string>,
                   results: seq<string>, start: map<string, string>, files: map<string, string>)
    requires RunAll(step, names, start) == PrependAll(results, RunAll(step, names[|names|..], files))
    ensures RunAll(step, names, start) == Step(Ok(results), files)
  {
    assert names[|names|..] == [];
    assert results + [] == results;
  }

  /** The YAML files of `resources/`, as `glob("*.yaml")` finds them. */
  function YamlNames(resources: map<string, Option<Value>>): (r: set<string>)
    ensures forall name :: name in r <==> name in resources && EndsWith(name, ".yaml")
  {
    set name | name in resources && EndsWith(name, ".yaml")
  }

  /** `generate_all`: `None` stands for a missing `resources/` directory. */
  function GeneratedAll(env: Env, resourcesDir: Option<map<string, Option<Value>>>, files: map<string, string>): Step<seq<string>> {
    match resourcesDir
    case None => Step(Err(ResourcesDirMissing), files)
    case Some(resources) => RunAll(StepFor(env, resources), SortedNames(YamlNames(resources)), files)
  }

  /** A file that is neither an artifact nor a temporary file. */
  predicate Foreign(path: string) {
    !EndsWith(path, ".rsc") && !EndsWith(path, ".tmp")
  }

  lemma ForeignIsNotOurs(path: string, id: string)
    requires Foreign(path)
    ensures path != FinalPath(id) && path != TmpPath(id)
  {
    TmpIsNotFinal(id, id);
    var f := FinalPath(id);
    assert f[|f| - 4..] == ".rsc";
  }

  /** A publication removes no artifact and changes no file foreign to the
      generator. */
  lemma PublishedFrame(files: map<string, string>, id: string, contents: string, faults: IoFaults, p: string)
    ensures var after := Published(files, id, contents, faults).files;
      (p in files && !EndsWith(p, ".tmp") ==> p in after)
      && (Foreign(p) ==> (p in after <==> p in files) && (p in files ==> after[p] == files[p]))
  {
    TmpIsNotFinal(id, id);
    if p == TmpPath(id) {
      assert EndsWith(p, ".tmp");
    }
    if Foreign(p) {
      ForeignIsNotOurs(p, id);
    }
  }

  /** A run of `generate_resource` removes no artifact and changes no file
      foreign to the generator. */
  lemma GeneratedFrame(env: Env, resources: map<string, Option<Value>>, id: string, files: map<string, string>, p: string)
    ensures var after := Generated(env, resources, id, files).files;
      (p in files && !EndsWith(p, ".tmp") ==> p in after)
      && (Foreign(p) ==> (p in after <==> p in files) && (p in files ==> after[p] == files[p]))
  {
    match Prepared(env, resources, id) {
      case Err(_) =>
      case Ok(contents) => PublishedFrame(files, id, contents, env.faults(id), p);
    }
  }

  /** What a step of `generate_all` may do to `p`: an artifact stays, a
      foreign file is untouched, and a returned path names an artifact
      present afterwards. */
  ghost predicate KeepsFile(before: map<string, string>, after: Step<string>, p: string) {
    (p in before && !EndsWith(p, ".tmp") ==> p in after.files)
    && (Foreign(p) ==> (p in after.files <==> p in before) && (p in before ==> after.files[p] == before[p]))
    && (after.result.Ok? ==> after.result.value in after.files && EndsWith(after.result.value, ".rsc")
                             && !EndsWith(after.result.value, ".tmp"))
  }

  /** `step` behaves so on every file name, every `dist/` and every path. */
  ghost predicate KeepsFiles(step: (string, map<string, string>) -> Step<string>) {
    forall name, files, p :: KeepsFile(files, step(name, files), p)
  }

  /** One step of `generate_all` keeps the files it should. */
  lemma GenerateOneKeeps(env: Env, resources: map<string, Option<Value>>, name: string, files: map<string, string>, p: string)
    ensures KeepsFile(files, GenerateOne(env, resources, name, files), p)
  {
    match ReadConfig(resources, name) {
      case Err(_) =>
      case Ok(config) =>
        var id := config.resourceId;
        GeneratedFrame(env, resources, id, files, p);
        if Generated(env, resources, id, files).result.Ok? {
          PublishedSuccess(files, id, Prepared(env, resources, id).value, env.faults(id));
          var path := FinalPath(id);
          assert path[|path| - 4..] == ".rsc";
          TmpIsNotFinal(id, id);
        }
    }
  }

  lemma StepForKeeps(env: Env, resources: map<string, Option<Value>>)
    ensures KeepsFiles(StepFor(env, resources))
  {
    forall name, files, p ensures KeepsFile(files, StepFor(env, resources)(name, files), p) {
      GenerateOneKeeps(env, resources, name, files, p);
    }
  }

  /** A whole run removes no artifact and changes no foreign file; a
      successful one returns one path per file, each naming an artifact
      that is present afterwards. */
  lemma {:induction false} RunAllFrame(step: (string, map<string, string>) -> Step<string>, names: seq<string>,
                                       files: map<string, string>, p: string)
    requires KeepsFiles(step)
    ensures var run := RunAll(step, names, files);
      (p in files && !EndsWith(p, ".tmp") ==> p in run.files)
      && (Foreign(p) ==> (p in run.files <==> p in files) && (p in files ==> run.files[p] == files[p]))
      && (run.result.Ok? ==> |run.result.value| == |names|
                             && forall q :: q in run.result.value ==> q in run.files && EndsWith(q, ".rsc"))
    decreases |names|
  {
    if names != [] {
      var first := step(names[0], files);
      assert KeepsFile(files, first, p);
      if first.result.Ok? {
        var path := first.result.value;
        assert KeepsFile(files, first, path);
        RunAllFrame(step, names[1..], first.files, p);
        RunAllFrame(step, names[1..], first.files, path);
      }
    }
  }

  /** `generate_all` removes no artifact and changes no foreign file in
      `dist/`; when it succeeds it returns one path per YAML file, each
      naming an artifact present afterwards. */
  lemma GeneratedAllFrame(env: Env, resourcesDir: Option<map<string, Option<Value>>>, files: map<string, string>, p: string)
    ensures var run := GeneratedAll(env, resourcesDir, files);
      (p in files && !EndsWith(p, ".tmp") ==> p in run.files)
      && (Foreign(p) ==> (p in run.files <==> p in files) && (p in files ==> run.files[p] == files[p]))
      && (run.result.Ok? ==> |run.result.value| == |YamlNames(resourcesDir.value)|
                             && forall q :: q in run.result.value ==> q in run.files && EndsWith(q, ".rsc"))
  {
    if resourcesDir.Some? {
      var resources := resourcesDir.value;
      StepForKeeps(env, resources);
      RunAllFrame(StepFor(env, resources), SortedNames(YamlNames(resources)), files, p);
    }
  }

  /** `generate_all` aborts at the first failing file: whatever follows it
      in the listing is never processed. */
  lemma {:induction false} RunAllStops(step: (string, map<string, string>) -> Step<string>, names: seq<string>,
                                       more: seq<string>, files: map<string, string>)
    requires RunAll(step, names, files).result.Err?
    ensures RunAll(step, names + more, files) == RunAll(step, names, files)
    decreases |names|
  {
    assert names != [];
    assert (names + more)[0] == names[0];
    assert (names + more)[1..] == names[1..] + more;
    var first := step(names[0], files);
    if first.result.Ok? {
      RunAllStops(step, names[1..], more, first.files);
    }
  }

  /** `dist/` as the generator sees it. */
  class Disk {
    var files: map<string, string>

    constructor (files: map<string, string>)
      ensures this.files == files
    {
      this.files := files;
    }

    predicate Exists(path: string)
      reads this
    {
      path in files
    }

    /** `Path.write_text`; `fails` says whether the write raises. */
    method WriteText(path: string, text: string, fails: bool) returns (ok: bool)
      modifies this
      ensures ok == !fails
      ensures files == if fails then old(files) else old(files)[path := text]
    {
      if fails {
        return false;
      }
      files := files[path := text];
      return true;
    }

    /** `Path.read_text` of a file that exists; `fails` says whether the
        read raises. */
    method ReadText(path: string, fails: bool) returns (r: Option<string>)
      requires path in files
      ensures r == if fails then None else Some(files[path])
    {
      if fails {
        return None;
      }
      return Some(files[path]);
    }

    /** What other processes do to `path` between the write and the read
        back: an `Altered` file is rewritten with its new text. */
    method Interfere(path: string, back: ReadBack)
      modifies this
      ensures files == if back.Altered? then old(files)[path := back.text] else old(files)
    {
      if back.Altered? {
        files := files[path := back.text];
      }
    }

    /** `os.replace(src, dst)`; `fails` says whether it raises. */
    method Replace(src: string, dst: string, fails: bool) returns (ok: bool)
      requires src in files
      modifies this
      ensures ok == !fails
      ensures files == if fails then old(files) else (old(files) - {src})[dst := old(files)[src]]
    {
      if fails {
        return false;
      }
      files := (files - {src})[dst := files[src]];
      return true;
    }

    /** `Path.unlink(missing_ok=True)`. */
    method Unlink(path: string)
      modifies this
      ensures files == old(files) - {path}
    {
      files := files - {path};
    }

    /** The first part of the `try` block of `generate_resource`: write
        the temporary file, read it back and self-check what was read. */
    method CheckedWrite(id: string, contents: string, faults: IoFaults) returns (failure: Option<PublishCause>)
      modifies this
      ensures failure == CheckedWriteFailure(id, contents, faults)
      ensures files == if faults.writeFails then old(files)
                       else old(files)[TmpPath(id) := StoredText(faults.readBack, contents)]
    {
      var tmp := TmpPath(id);
      var written := WriteText(tmp, contents, faults.writeFails);
      if !written {
        return Some(WriteError);
      }
      var stored := StoredText(faults.readBack, contents);
      Interfere(tmp, faults.readBack);
      assert files == old(files)[tmp := stored];
      var text := ReadText(tmp, faults.readBack.ReadFails?);
      if text.None? {
        return Some(ReadError);
      }
      assert text == ReadBackText(faults.readBack, contents);
      var check := SelfCheckRsc(id, text.value);
      if check.Fail? {
        return Some(SelfCheckFailed(check.error));
      }
      return None;
    }

    /** The `try` block of `generate_resource` and its `except` clause:
        publish by renaming, or remove the temporary file. */
    method Publish(id: string, contents: string, faults: IoFaults) returns (r: Result<string, Error>)
      modifies this
      ensures Step(r, files) == Published(old(files), id, contents, faults)
    {
      var tmp := TmpPath(id);
      var final := FinalPath(id);
      var failure := CheckedWrite(id, contents, faults);
      RemoveAfterUpdate(old(files), tmp, StoredText(faults.readBack, contents));
      if failure.None? {
        var renamed := Replace(tmp, final, faults.renameFails);
        if renamed {
          return Ok(final);
        }
        failure := Some(RenameError);
      }
      if Exists(tmp) {
        Unlink(tmp);
      } else {
        RemoveAbsent(files, tmp);
      }
      return Err(WriteFailed(final, failure.value));
    }

    /** `generate_resource(id)`. */
    method GenerateResource(env: Env, resources: map<string, Option<Value>>, id: string) returns (r: Result<string, Error>)
      modifies this
      ensures Step(r, files) == Generated(env, resources, id, old(files))
    {
      var name := ConfigName(id);
      if name !in resources {
        return Err(ConfigNotFound(name));
      }
      var loaded := ReadConfig(resources, name);
      if loaded.Err? {
        return Err(loaded.error);
      }
      var config := loaded.value;
      if config.resourceId != id {
        return Err(ResourceIdMismatch);
      }

      var gathered := GatherPrefixes(env.registry, config.asns);
      if gathered.Err? {
        return Err(gathered.error);
      }
      var prefixes := gathered.value;
      var normalized := NormalizeIpv4(prefixes);
      if normalized.Err? {
        return Err(normalized.error);
      }
      var networks := DedupSort(normalized.value);
      var contents := RenderRsc(id, env.clock(id), networks);

      r := Publish(id, contents, env.faults(id));
    }

    /** One iteration of `generate_all`'s loop: load the globbed file, then
        generate the resource it names. */
    method GenerateFromFile(env: Env, resources: map<string, Option<Value>>, name: string) returns (r: Result<string, Error>)
      modifies this
      ensures Step(r, files) == GenerateOne(env, resources, name, old(files))
    {
      var loaded := ReadConfig(resources, name);
      if loaded.Err? {
        return Err(loaded.error);
      }
      r := GenerateResource(env, resources, loaded.value.resourceId);
    }

    /** `generate_all()`: `None` stands for a missing `resources/`. */
    method GenerateAll(env: Env, resourcesDir: Option<map<string, Option<Value>>>) returns (r: Result<seq<string>, Error>)
      modifies this
      ensures Step(r, files) == GeneratedAll(env, resourcesDir, old(files))
    {
      if resourcesDir.None? {
        return Err(ResourcesDirMissing);
      }
      var resources := resourcesDir.value;
      var names := SortedNames(YamlNames(resources));
      ghost var step := StepFor(env, resources);
      var results: seq<string> := [];
      var i := 0;
      assert names[i..] == names;
      while i < |names|
        invariant 0 <= i <= |names|
        invariant RunAll(step, names, old(files)) == PrependAll(results, RunAll(step, names[i..], files))
      {
        ghost var before := files;
        var path := GenerateFromFile(env, resources, names[i]);
        assert step(names[i], before) == Step(path, files);
        if path.Err? {
          RunAllStepErr(step, names, i, results, old(files), before);
          return Err(path.error);
        }
        RunAllStepOk(step, names, i, results, old(files), before);
        results := results + [path.value];
        i := i + 1;
      }
      RunAllDone(step, names, results, old(files), files);
      return Ok(results);
    }
  }
}

=== FILE: ipv4.dfy ===
/** IPv4 networks as the generator handles them: parsed from `a.b.c.d[/n]`
    text in non-strict mode (host bits are cleared, not rejected), printed
    back in canonical `a.b.c.d/n` form, and ordered by (network address,
    prefix length). */
module Ipv4 {
  import opened Wrappers
  import opened Text
  import opened Values

  /** Number of IPv4 addresses, 2^32. */
  const AddressSpace: nat := 0x1_0000_0000

  function Pow2(k: nat): (r: nat)
    ensures r >= 1
  {
    if k == 0 then 1 else 2 * Pow2(k - 1)
  }

  /** A network: its address as an integer and its prefix length. */
  datatype Network = Network(address: int, prefixLen: int)

  /** The low `h` bits of the non-negative `a` are all zero. */
  predicate LowBitsClear(a: int, h: nat)
    decreases h
  {
    h == 0 || (a % 2 == 0 && LowBitsClear(a / 2, h - 1))
  }

  /** `a` with its low `h` bits set to zero. */
  function ClearLowBits(a: int, h: nat): (r: int)
    requires a >= 0
    ensures 0 <= r <= a
    ensures a - r < Pow2(h)
    ensures LowBitsClear(r, h)
    ensures LowBitsClear(a, h) ==> r == a
    decreases h
  {
    if h == 0 then a else 2 * ClearLowBits(a / 2, h - 1)
  }

  /** A canonical IPv4 network: prefix length 0..32, a 32-bit address, and
      every host bit (the low 32 - prefixLen bits) clear. */
  predicate Valid(n: Network) {
    0 <= n.prefixLen <= 32 && 0 <= n.address < AddressSpace && LowBitsClear(n.address, 32 - n.prefixLen)
  }

  /** `address & netmask` for a /len netmask: the address with its host bits,
      the low 32 - len, cleared. */
  function Masked(address: int, len: int): (r: int)
    requires 0 <= address < AddressSpace && 0 <= len <= 32
    ensures Valid(Network(r, len))
    ensures address - Pow2(32 - len) < r <= address
    ensures LowBitsClear(address, 32 - len) ==> r == address
  {
    ClearLowBits(address, 32 - len)
  }

  /** The four bytes of an address, most significant first. */
  function Octets(a: int): (o: seq<int>)
    requires 0 <= a < AddressSpace
    ensures |o| == 4 && forall i :: 0 <= i < 4 ==> 0 <= o[i] < 256
  {
    var b := a / 256;
    var c := b / 256;
    [c / 256, c % 256, b % 256, a % 256]
  }

  /** The address whose bytes are `o`, most significant first. */
  function FromOctets(o: seq<int>): (a: int)
    requires |o| == 4 && forall i :: 0 <= i < 4 ==> 0 <= o[i] < 256
    ensures 0 <= a < AddressSpace
  {
    ((o[0] * 256 + o[1]) * 256 + o[2]) * 256 + o[3]
  }

  lemma OctetsRoundTrip(a: int)
    requires 0 <= a < AddressSpace
    ensures FromOctets(Octets(a)) == a
  {
    var b := a / 256;
    var c := b / 256;
    assert a == b * 256 + a % 256;
    assert b == c * 256 + b % 256;
    assert c == (c / 256) * 256 + c % 256;
  }

  /** One dotted-decimal byte as `ipaddress` accepts it: one to three ASCII
      digits, no leading zero except "0" itself, value at most 255. */
  function ParseOctet(t: string): (r: Option<int>)
    ensures r.Some? ==> 0 <= r.value < 256
    ensures r.Some? <==> t != [] && AllDigits(t) && |t| <= 3 && (t[0] == '0' ==> t == "0") && DecimalValue(t) <= 255
  {
    if t == [] || !AllDigits(t) || |t| > 3 || (t != "0" && t[0] == '0') then None
    else
      var v := DecimalValue(t);
      if v > 255 then None else Some(v)
  }

  /** A dotted-quad address: exactly four parts separated by '.', each a byte. */
  function ParseAddress(t: string): (r: Option<int>)
    ensures r.Some? ==> 0 <= r.value < AddressSpace
    ensures var parts := Split(t, '.');
      r.Some? <==> |parts| == 4 && ParseOctet(parts[0]).Some? && ParseOctet(parts[1]).Some?
                   && ParseOctet(parts[2]).Some? && ParseOctet(parts[3]).Some?
    ensures var parts := Split(t, '.');
      r.Some? ==> r.value == FromOctets([ParseOctet(parts[0]).value, ParseOctet(parts[1]).value,
                                         ParseOctet(parts[2]).value, ParseOctet(parts[3]).value])
  {
    var parts := Split(t, '.');
    if |parts| != 4 then None
    else
      match (ParseOctet(parts[0]), ParseOctet(parts[1]), ParseOctet(parts[2]), ParseOctet(parts[3]))
      case (Some(o0), Some(o1), Some(o2), Some(o3)) => Some(FromOctets([o0, o1, o2, o3]))
      case _ => None
  }

  /** A prefix length written as ASCII digits (leading zeros allowed), 0..32. */
  function ParsePrefixLen(t: string): (r: Option<int>)
    ensures r.Some? ==> 0 <= r.value <= 32
    ensures r.Some? <==> t != [] && AllDigits(t) && DecimalValue(t) <= 32
    ensures r.Some? ==> r.value == DecimalValue(t)
  {
    if t != [] && AllDigits(t) && DecimalValue(t) <= 32 then Some(DecimalValue(t)) else None
  }

  /** `ipaddress.ip_network(text, strict=False)` when it yields an IPv4
      network: `a.b.c.d` (a /32) or `a.b.c.d/n`, host bits masked off.
      Every other text (IPv6, garbage) is `None`. */
  function ParseNetwork(text: string): (r: Option<Network>)
    ensures r.Some? ==> Valid(r.value)
    ensures var parts := Split(text, '/');
      r.Some? <==> |parts| <= 2 && ParseAddress(parts[0]).Some?
                   && (|parts| == 2 ==> ParsePrefixLen(parts[1]).Some?)
    ensures var parts := Split(text, '/');
      r.Some? ==> var len := if |parts| == 1 then 32 else ParsePrefixLen(parts[1]).value;
                  r.value == Network(Masked(ParseAddress(parts[0]).value, len), len)
  {
    var parts := Split(text, '/');
    if |parts| > 2 then None
    else
      match ParseAddress(parts[0])
      case None => None
      case Some(a) =>
        var len := if |parts| == 1 then Some(32) else ParsePrefixLen(parts[1]);
        match len
        case None => None
        case Some(l) => Some(Network(Masked(a, l), l))
  }

  /** `ip_network(v, strict=False)` on a decoded value that need not be a
      string: an integer in 0..2^32-1 (and a bool, which Python treats as 0
      or 1) is that address as a /32; other non-strings are rejected. */
  function NetworkOfValue(v: Value): (r: Option<Network>)
    ensures r.Some? ==> Valid(r.value)
    ensures v.Str? ==> r == ParseNetwork(v.s)
    ensures v.Null? || v.Arr? || v.Obj? ==> r.None?
    ensures v.Num? ==> (r.Some? <==> 0 <= v.n < AddressSpace)
    ensures v.Num? && r.Some? ==> r.value == Network(v.n, 32)
    ensures v.Bool? ==> r.Some? && r.value.prefixLen == 32 && r.value.address == (if v.b then 1 else 0)
  {
    match v
    case Str(s) => ParseNetwork(s)
    case Num(k) => if 0 <= k < AddressSpace then Some(Network(k, 32)) else None
    case Bool(b) => Some(Network(if b then 1 else 0, 32))
    case _ => None
  }

  /** `str(address)`: four decimal bytes separated by '.'. */
  function DottedQuad(a: int): (s: string)
    requires 0 <= a < AddressSpace
    ensures forall i :: 0 <= i < |s| ==> IsDigit(s[i]) || s[i] == '.'
  {
    var o := Octets(a);
    DecimalText(o[0]) + ("." + (DecimalText(o[1]) + ("." + (DecimalText(o[2]) + ("." + DecimalText(o[3]))))))
  }

  /** `str(network)`: dotted-decimal network address, '/', prefix length. */
  function Format(n: Network): (s: string)
    requires Valid(n)
    ensures forall i :: 0 <= i < |s| ==> IsDigit(s[i]) || s[i] == '.' || s[i] == '/'
  {
    DottedQuad(n.address) + "/" + DecimalText(n.prefixLen)
  }

  lemma NoSeparatorInDecimal(n: nat, c: char)
    requires !IsDigit(c)
    ensures c !in DecimalText(n)
  {
  }

  lemma ParseOctetOfDecimal(k: int)
    requires 0 <= k < 256
    ensures ParseOctet(DecimalText(k)) == Some(k)
  {
    DecimalRoundTrip(k);
    var t := DecimalText(k);
    if t[0] == '0' {
      assert t == "0";
    }
  }

  /** Parsing the dotted-quad text of an address gives the address back. */
  lemma ParseDottedQuad(a: int)
    requires 0 <= a < AddressSpace
    ensures ParseAddress(DottedQuad(a)) == Some(a)
  {
    var o := Octets(a);
    NoSeparatorInDecimal(o[0], '.');
    NoSeparatorInDecimal(o[1], '.');
    NoSeparatorInDecimal(o[2], '.');
    NoSeparatorInDecimal(o[3], '.');
    SplitFour(DecimalText(o[0]), DecimalText(o[1]), DecimalText(o[2]), DecimalText(o[3]), '.');
    ParseOctetOfDecimal(o[0]);
    ParseOctetOfDecimal(o[1]);
    ParseOctetOfDecimal(o[2]);
    ParseOctetOfDecimal(o[3]);
    OctetsRoundTrip(a);
  }

  /** `str(net)` is canonical: one '/', before it the strict dotted quad
      of the network address itself (host bits clear, no leading zeros),
      after it the prefix length in its shortest decimal form. */
  lemma FormatCanonical(n: Network)
    requires Valid(n)
    ensures var parts := Split(Format(n), '/');
      |parts| == 2 && ParseAddress(parts[0]) == Some(n.address) && parts[1] == DecimalText(n.prefixLen)
  {
    var a := DottedQuad(n.address);
    var l := DecimalText(n.prefixLen);
    assert '/' !in a;
    NoSeparatorInDecimal(n.prefixLen, '/');
    assert Format(n) == JoinWith([a, l], '/') by {
      assert [a, l][1..] == [l];
    }
    SplitJoin([a, l], '/');
    ParseDottedQuad(n.address);
  }

  /** Every text `ParseOctet` accepts is the shortest decimal form of its
      value. */
  lemma ParseOctetCanonical(t: string)
    requires ParseOctet(t).Some?
    ensures t == DecimalText(ParseOctet(t).value)
  {
    DecimalCanonical(t);
  }

  lemma FromOctetsRoundTrip(o: seq<int>)
    requires |o| == 4 && forall i :: 0 <= i < 4 ==> 0 <= o[i] < 256
    ensures Octets(FromOctets(o)) == o
  {
    var x := o[0] * 256 + o[1];
    var y := x * 256 + o[2];
    var a := y * 256 + o[3];
    assert a / 256 == y && a % 256 == o[3];
    assert y / 256 == x && y % 256 == o[2];
    assert x / 256 == o[0] && x % 256 == o[1];
  }

  /** The strict parser accepts only the canonical text of an address: the
      text `str()` prints for the address it yields. */
  lemma ParseAddressCanonical(t: string)
    requires ParseAddress(t).Some?
    ensures t == DottedQuad(ParseAddress(t).value)
  {
    var parts := Split(t, '.');
    var o := [ParseOctet(parts[0]).value, ParseOctet(parts[1]).value,
              ParseOctet(parts[2]).value, ParseOctet(parts[3]).value];
    FromOctetsRoundTrip(o);
    ParseOctetCanonical(parts[0]);
    ParseOctetCanonical(parts[1]);
    ParseOctetCanonical(parts[2]);
    ParseOctetCanonical(parts[3]);
    JoinSplit(t, '.');
    assert parts == [parts[0], parts[1], parts[2], parts[3]];
    JoinFour(parts[0], parts[1], parts[2], parts[3], '.');
  }

  /** A text with one '/', the strict dotted quad of the network address
      before it and the shortest decimal prefix length after it is exactly
      `str(net)`: with `FormatCanonical` this pins the printed form. */
  lemma FormatUnique(n: Network, s: string)
    requires Valid(n)
    requires var parts := Split(s, '/');
      |parts| == 2 && ParseAddress(parts[0]) == Some(n.address) && parts[1] == DecimalText(n.prefixLen)
    ensures s == Format(n)
  {
    var parts := Split(s, '/');
    ParseAddressCanonical(parts[0]);
    JoinSplit(s, '/');
    assert parts[1..] == [parts[1]];
    assert JoinWith(parts, '/') == parts[0] + "/" + parts[1];
  }

  /** Parsing the canonical text of a network gives the network back. */
  lemma ParseFormat(n: Network)
    requires Valid(n)
    ensures ParseNetwork(Format(n)) == Some(n)
  {
    FormatCanonical(n);
    DecimalRoundTrip(n.prefixLen);
    assert ParsePrefixLen(DecimalText(n.prefixLen)) == Some(n.prefixLen);
  }

  /** Non-strict parsing of any dotted quad with any prefix length clears
      the host bits instead of rejecting the text. */
  lemma ParseMasksHostBits(a: int, l: int)
    requires 0 <= a < AddressSpace && 0 <= l <= 32
    ensures ParseNetwork(DottedQuad(a) + "/" + DecimalText(l)) == Some(Network(Masked(a, l), l))
  {
    var q := DottedQuad(a);
    var d := DecimalText(l);
    assert '/' !in q;
    NoSeparatorInDecimal(l, '/');
    assert q + "/" + d == JoinWith([q, d], '/') by {
      assert [q, d][1..] == [d];
    }
    SplitJoin([q, d], '/');
    ParseDottedQuad(a);
    DecimalRoundTrip(l);
    assert ParsePrefixLen(d) == Some(l);
  }

  /** A dotted quad without a length is the /32 network of that address. */
  lemma ParseBareAddress(a: int)
    requires 0 <= a < AddressSpace
    ensures ParseNetwork(DottedQuad(a)) == Some(Network(a, 32))
  {
    var q := DottedQuad(a);
    assert '/' !in q;
    SplitSingle(q, '/');
    ParseDottedQuad(a);
  }

  /** Two canonical networks print the same exactly when they are equal, so
      keying by `str(net)` and keying by the network pick out the same
      duplicates. */
  lemma FormatInjective(a: Network, b: Network)
    requires Valid(a) && Valid(b)
    ensures Format(a) == Format(b) <==> a == b
  {
    ParseFormat(a);
    ParseFormat(b);
  }

  /** The sort key `(int(net.network_address), net.prefixlen)` compared
      lexicographically. */
  predicate KeyLess(a: Network, b: Network) {
    a.address < b.address || (a.address == b.address && a.prefixLen < b.prefixLen)
  }

  /** The sort key orders networks strictly and totally, so `sorted` has a
      single answer once duplicates are gone. */
  lemma KeyLessStrictTotal(a: Network, b: Network, c: Network)
    ensures !KeyLess(a, a)
    ensures KeyLess(a, b) && KeyLess(b, c) ==> KeyLess(a, c)
    ensures a != b ==> KeyLess(a, b) || KeyLess(b, a)
  {
  }
}

=== FILE: normalize.dfy ===
/** The normaliser: keep the entries that parse as IPv4 networks (host bits
    masked off), fail when none survive, then remove duplicates and sort by
    (network address, prefix length). */
module Normalize {
  import opened Wrappers
  import opened Values
  import opened Ipv4
  import opened Errors

  /** The IPv4 networks among `prefixes`, in input order; entries that do not
      parse, and IPv6 entries, are skipped. */
  function Ipv4NetworksOf(prefixes: seq<Value>): (r: seq<Network>)
    ensures |r| <= |prefixes|
    ensures forall n :: n in r ==> Valid(n)
    decreases |prefixes|
  {
    if prefixes == [] then []
    else
      var init := Ipv4NetworksOf(prefixes[..|prefixes| - 1]);
      match NetworkOfValue(prefixes[|prefixes| - 1])
      case Some(n) => init + [n]
      case None => init
  }

  /** Filtering one more entry appends its network, if it has one. */
  lemma Ipv4NetworksSnoc(prefixes: seq<Value>)
    requires prefixes != []
    ensures var last := NetworkOfValue(prefixes[|prefixes| - 1]);
      Ipv4NetworksOf(prefixes)
        == Ipv4NetworksOf(prefixes[..|prefixes| - 1]) + (if last.Some? then [last.value] else [])
  {
  }

  /** Every kept network comes from some entry. */
  lemma {:induction false} KeptNetworkHasEntry(prefixes: seq<Value>, n: Network)
    requires n in Ipv4NetworksOf(prefixes)
    ensures exists i :: 0 <= i < |prefixes| && NetworkOfValue(prefixes[i]) == Some(n)
    decreases |prefixes|
  {
    var init := prefixes[..|prefixes| - 1];
    Ipv4NetworksSnoc(prefixes);
    if n in Ipv4NetworksOf(init) {
      KeptNetworkHasEntry(init, n);
      var i :| 0 <= i < |init| && NetworkOfValue(init[i]) == Some(n);
      assert prefixes[i] == init[i];
    } else {
      assert NetworkOfValue(prefixes[|prefixes| - 1]) == Some(n);
    }
  }

  /** Every entry that parses to a network has that network kept. */
  lemma {:induction false} EntryNetworkIsKept(prefixes: seq<Value>, i: int, n: Network)
    requires 0 <= i < |prefixes| && NetworkOfValue(prefixes[i]) == Some(n)
    ensures n in Ipv4NetworksOf(prefixes)
    decreases |prefixes|
  {
    var init := prefixes[..|prefixes| - 1];
    Ipv4NetworksSnoc(prefixes);
    var last := NetworkOfValue(prefixes[|prefixes| - 1]);
    var tail := if last.Some? then [last.value] else [];
    if i < |init| {
      assert init[i] == prefixes[i];
      EntryNetworkIsKept(init, i, n);
      assert n in Ipv4NetworksOf(init) + tail;
    } else {
      assert tail == [n];
    }
  }

  /** A network is kept exactly when some input entry parses to it. */
  lemma Ipv4NetworksMembership(prefixes: seq<Value>, n: Network)
    ensures n in Ipv4NetworksOf(prefixes) <==>
            exists i :: 0 <= i < |prefixes| && NetworkOfValue(prefixes[i]) == Some(n)
  {
    if n in Ipv4NetworksOf(prefixes) {
      KeptNetworkHasEntry(prefixes, n);
    }
    if exists i :: 0 <= i < |prefixes| && NetworkOfValue(prefixes[i]) == Some(n) {
      var i :| 0 <= i < |prefixes| && NetworkOfValue(prefixes[i]) == Some(n);
      EntryNetworkIsKept(prefixes, i, n);
    }
  }

  /** Filtering keeps input order: it distributes over concatenation. */
  lemma {:induction false} Ipv4NetworksAppend(a: seq<Value>, b: seq<Value>)
    ensures Ipv4NetworksOf(a + b) == Ipv4NetworksOf(a) + Ipv4NetworksOf(b)
    decreases |b|
  {
    if b == [] {
      assert a + b == a;
    } else {
      var b' := b[..|b| - 1];
      assert (a + b)[..|a + b| - 1] == a + b';
      Ipv4NetworksAppend(a, b');
    }
  }

  /** `_normalize_ipv4`: the loop appends each entry that parses as IPv4. */
  method NormalizeIpv4(prefixes: seq<Value>) returns (r: Result<seq<Network>, Error>)
    ensures r.Err? <==> Ipv4NetworksOf(prefixes) == []
    ensures r.Err? ==> r.error == NoIpv4Prefixes
    ensures r.Ok? ==> r.value == Ipv4NetworksOf(prefixes)
  {
    var networks: seq<Network> := [];
    var i := 0;
    while i < |prefixes|
      invariant 0 <= i <= |prefixes|
      invariant networks == Ipv4NetworksOf(prefixes[..i])
    {
      assert prefixes[..i + 1][..i] == prefixes[..i];
      var net := NetworkOfValue(prefixes[i]);
      if net.Some? {
        networks := networks + [net.value];
      }
      i := i + 1;
    }
    assert prefixes[..i] == prefixes;
    if networks == [] {
      return Err(NoIpv4Prefixes);
    }
    return Ok(networks);
  }

  /** Ascending by the sort key with no two entries sharing a key, hence
      with no duplicates. */
  predicate StrictlyIncreasing(s: seq<Network>) {
    forall i, j :: 0 <= i < j < |s| ==> KeyLess(s[i], s[j])
  }

  /** `x` placed into the sorted `s` at its position, unless already there. */
  function Insert(s: seq<Network>, x: Network): (r: seq<Network>)
    requires StrictlyIncreasing(s)
    ensures StrictlyIncreasing(r)
    ensures forall y :: y in r <==> y in s || y == x
    ensures |r| <= |s| + 1
  {
    if s == [] then [x]
    else if x == s[0] then s
    else if KeyLess(x, s[0]) then [x] + s
    else
      var tail := Insert(s[1..], x);
      assert forall y :: y in tail ==> KeyLess(s[0], y) by {
        forall y | y in tail ensures KeyLess(s[0], y) {
          if y != x {
            var k :| 0 <= k < |s[1..]| && s[1..][k] == y;
            assert s[k + 1] == y;
          }
        }
      }
      assert forall j :: 0 <= j < |tail| ==> KeyLess(s[0], tail[j]) by {
        forall j | 0 <= j < |tail| ensures KeyLess(s[0], tail[j]) {
          assert tail[j] in tail;
        }
      }
      [s[0]] + tail
  }

  /** `_dedup_sort`: one entry per distinct network (by `FormatInjective`,
      the same as one per distinct `str(net)`), sorted by (network address,
      prefix length). */
  function DedupSort(networks: seq<Network>): (r: seq<Network>)
    ensures StrictlyIncreasing(r)
    ensures forall n :: n in r <==> n in networks
    ensures |r| <= |networks|
    decreases |networks|
  {
    if networks == [] then []
    else
      var init := networks[..|networks| - 1];
      var last := networks[|networks| - 1];
      assert forall n :: n in networks <==> n in init || n == last by {
        assert networks == init + [last];
      }
      Insert(DedupSort(init), last)
  }

  lemma HeadIsLeast(s: seq<Network>)
    requires StrictlyIncreasing(s) && s != []
    ensures s[0] in s
    ensures forall n :: n in s && n != s[0] ==> KeyLess(s[0], n)
  {
  }

  /** A strictly increasing sequence is determined by its elements: there is
      only one sorted, duplicate-free arrangement of a set of networks. */
  lemma {:induction false} SortedUnique(a: seq<Network>, b: seq<Network>)
    requires StrictlyIncreasing(a) && StrictlyIncreasing(b)
    requires forall n :: n in a <==> n in b
    ensures a == b
    decreases |a|
  {
    if a != [] && b != [] {
      HeadIsLeast(a);
      HeadIsLeast(b);
      forall n ensures n in a[1..] <==> n in b[1..] {
        if n in a[1..] {
          var k :| 0 <= k < |a[1..]| && a[1..][k] == n;
          assert KeyLess(a[0], a[k + 1]);
          assert n in b;
        }
        if n in b[1..] {
          var k :| 0 <= k < |b[1..]| && b[1..][k] == n;
          assert KeyLess(b[0], b[k + 1]);
          assert n in a;
        }
      }
      SortedUnique(a[1..], b[1..]);
      assert a == [a[0]] + a[1..] && b == [b[0]] + b[1..];
    } else if a != [] {
      HeadIsLeast(a);
      assert false;
    } else if b != [] {
      HeadIsLeast(b);
      assert false;
    }
  }

  /** Deduplicating and sorting an already deduplicated, sorted list changes
      nothing, and the result depends only on which networks occur. */
  lemma DedupSortCanonical(xs: seq<Network>, ys: seq<Network>)
    requires forall n :: n in xs <==> n in ys
    ensures DedupSort(xs) == DedupSort(ys)
    ensures DedupSort(DedupSort(xs)) == DedupSort(xs)
  {
    SortedUnique(DedupSort(xs), DedupSort(ys));
    SortedUnique(DedupSort(DedupSort(xs)), DedupSort(xs));
  }

  /** The ordering example of the registry feed: 1.1.2.0/24, 1.1.1.0/24,
      1.1.1.0/25, 1.1.1.0/24 become 1.1.1.0/24, 1.1.1.0/25, 1.1.2.0/24. */
  lemma DedupSortExample()
    ensures DedupSort([Network(0x01010200, 24), Network(0x01010100, 24), Network(0x01010100, 25), Network(0x01010100, 24)])
         == [Network(0x01010100, 24), Network(0x01010100, 25), Network(0x01010200, 24)]
  {
    var input := [Network(0x01010200, 24), Network(0x01010100, 24), Network(0x01010100, 25), Network(0x01010100, 24)];
    var expected := [Network(0x01010100, 24), Network(0x01010100, 25), Network(0x01010200, 24)];
    assert forall n :: n in expected <==> n in input;
    SortedUnique(DedupSort(input), expected);
  }
}

=== FILE: rsc.dfy ===
/** The RouterOS script artifact: how `_render_rsc` lays it out and how
    `_self_check_rsc` inspects a file's text before it is published. */
module Rsc {
  import opened Wrappers
  import opened Text
  import opened Ipv4
  import opened Errors

  const FormatMarker := "# iplist-rsc v1"
  const CountPrefix := "# count="
  /** The RouterOS menu every command of the artifact addresses. */
  const ListMenu := "/ip/firewall/address-list "
  const AddPrefix := ListMenu + "add "
  const ListMarker := "list=$AddressList"

  /** The comment that marks the entries owned by resource `id`. */
  function OwnerTag(id: string): string {
    "comment=\"iplist:auto:" + id + "\""
  }

  /** The command that clears every entry the resource owns. */
  function RemoveLine(id: string): string {
    ListMenu + "remove [find where " + OwnerTag(id) + "]"
  }

  lemma RemoveLineIsCommand(id: string)
    ensures IsCommand(RemoveLine(id)) && !IsAddLine(RemoveLine(id))
  {
    var r := RemoveLine(id);
    assert r == ListMenu + ("remove [find where " + OwnerTag(id) + "]");
    assert r[0] == ListMenu[0] == '/';
    assert r[26] == 'r';
    assert AddPrefix[26] == 'a';
  }

  /** The command that adds one network to the list `$AddressList`. */
  function AddLine(id: string, n: Network): string
    requires Valid(n)
  {
    AddPrefix + ListMarker + " address=" + Format(n) + " " + OwnerTag(id)
  }

  /** The header block: marker, resource, timestamp, count, blank line. */
  function Header(id: string, generated: string, count: nat): seq<string> {
    [FormatMarker, "# resource=" + id, "# generated=" + generated, CountPrefix + DecimalText(count), ""]
  }

  /** One add command per network, in order. */
  function AddLines(id: string, networks: seq<Network>): (r: seq<string>)
    requires forall n :: n in networks ==> Valid(n)
  {
    seq(|networks|, i requires 0 <= i < |networks| => AddLine(id, networks[i]))
  }

  function RenderedLines(id: string, generated: string, networks: seq<Network>): seq<string>
    requires forall n :: n in networks ==> Valid(n)
  {
    Header(id, generated, |networks|) + [RemoveLine(id)] + AddLines(id, networks)
  }

  /** The artifact text: the lines joined by "\n", with a final "\n". */
  function RenderedText(id: string, generated: string, networks: seq<Network>): string
    requires forall n :: n in networks ==> Valid(n)
  {
    JoinWith(RenderedLines(id, generated, networks), '\n') + "\n"
  }

  /** One more network adds one more line at the end. */
  lemma AddLinesSnoc(id: string, networks: seq<Network>, i: nat)
    requires i < |networks| && forall n :: n in networks ==> Valid(n)
    ensures AddLines(id, networks[..i + 1]) == AddLines(id, networks[..i]) + [AddLine(id, networks[i])]
  {
    assert networks[..i + 1][i] == networks[i];
    assert forall j :: 0 <= j < i ==> networks[..i + 1][j] == networks[..i][j];
  }

  /** The first six rendered lines are the header and the remove command. */
  lemma RenderedLinesFront(id: string, generated: string, networks: seq<Network>)
    requires forall n :: n in networks ==> Valid(n)
    ensures var lines := RenderedLines(id, generated, networks);
      var header := Header(id, generated, |networks|);
      |lines| == 6 + |networks|
      && lines[0] == header[0] && lines[1] == header[1] && lines[2] == header[2]
      && lines[3] == header[3] && lines[4] == header[4] && lines[5] == RemoveLine(id)
  {
  }

  /** `_render_rsc`, with the clock reading passed in as `generated`. */
  method RenderRsc(id: string, generated: string, networks: seq<Network>) returns (text: string)
    requires forall n :: n in networks ==> Valid(n)
    ensures text == RenderedText(id, generated, networks)
  {
    var header := Header(id, generated, |networks|);
    var lines := [RemoveLine(id)];
    var i := 0;
    while i < |networks|
      invariant 0 <= i <= |networks|
      invariant lines == [RemoveLine(id)] + AddLines(id, networks[..i])
    {
      AddLinesSnoc(id, networks, i);
      lines := lines + [AddLine(id, networks[i])];
      i := i + 1;
    }
    assert networks[..i] == networks;
    assert header + lines == RenderedLines(id, generated, networks);
    text := JoinWith(header + lines, '\n') + "\n";
  }

  /** A script command: a non-empty line that is not a comment. */
  predicate IsCommand(line: string) {
    line != [] && line[0] != '#'
  }

  predicate IsCountLine(line: string) {
    StartsWith(line, CountPrefix)
  }

  predicate IsAddLine(line: string) {
    StartsWith(line, AddPrefix)
  }

  /** The first command among `lines`, if any. */
  function FirstCommand(lines: seq<string>): (r: Option<string>)
    ensures r.None? <==> forall i :: 0 <= i < |lines| ==> !IsCommand(lines[i])
    ensures r.Some? ==> exists i :: 0 <= i < |lines| && lines[i] == r.value && IsCommand(lines[i])
                         && forall j :: 0 <= j < i ==> !IsCommand(lines[j])
  {
    if lines == [] then None
    else if IsCommand(lines[0]) then Some(lines[0])
    else
      var r := FirstCommand(lines[1..]);
      assert forall i :: 1 <= i < |lines| ==> lines[i] == lines[1..][i - 1];
      r
  }

  /** The first line starting with "# count=", if any. */
  function FirstCountLine(lines: seq<string>): (r: Option<string>)
    ensures r.None? <==> forall i :: 0 <= i < |lines| ==> !IsCountLine(lines[i])
    ensures r.Some? ==> exists i :: 0 <= i < |lines| && lines[i] == r.value && IsCountLine(lines[i])
                         && forall j :: 0 <= j < i ==> !IsCountLine(lines[j])
  {
    if lines == [] then None
    else if IsCountLine(lines[0]) then Some(lines[0])
    else
      var r := FirstCountLine(lines[1..]);
      assert forall i :: 1 <= i < |lines| ==> lines[i] == lines[1..][i - 1];
      r
  }

  /** The add commands among `lines`, in order. */
  function AddLinesOf(lines: seq<string>): (r: seq<string>)
    ensures |r| <= |lines|
    ensures forall l :: l in r ==> l in lines && IsAddLine(l)
    ensures forall l :: l in lines && IsAddLine(l) ==> l in r
  {
    if lines == [] then []
    else
      var rest := AddLinesOf(lines[1..]);
      assert forall l :: l in lines ==> l == lines[0] || l in lines[1..];
      if IsAddLine(lines[0]) then [lines[0]] + rest else rest
  }

  lemma {:induction false} AddLinesOfAppend(a: seq<string>, b: seq<string>)
    ensures AddLinesOf(a + b) == AddLinesOf(a) + AddLinesOf(b)
  {
    if a == [] {
      assert a + b == b;
    } else {
      assert (a + b)[1..] == a[1..] + b;
      AddLinesOfAppend(a[1..], b);
    }
  }

  /** The number the count header states: `int(line.split("=", 1)[1].strip())`. */
  function CountValue(line: string): Option<int> {
    ParseInt(Strip(AfterFirst(line, '=')))
  }

  /** Every one of `adds` targets the list `$AddressList`. */
  predicate AllTargetList(adds: seq<string>) {
    forall l :: l in adds ==> Contains(l, ListMarker)
  }

  /** The checks of `_self_check_rsc` that follow the search for the remove
      command, on the text's lines. */
  function CheckLines(remove: string, lines: seq<string>): (r: Outcome<CheckError>)
    ensures r == Fail(NoAddLines) ==> AddLinesOf(lines) == []
    ensures r == Fail(CountMismatch) ==>
      FirstCountLine(lines).Some? && CountValue(FirstCountLine(lines).value) != Some(|AddLinesOf(lines)|)
  {
    if FirstCommand(lines) != Some(remove) then Fail(RemoveLineNotFirst)
    else match FirstCountLine(lines)
      case None => Fail(CountHeaderMissing)
      case Some(countLine) =>
        match CountValue(countLine)
        case None => Fail(CountHeaderInvalid)
        case Some(expected) =>
          var adds := AddLinesOf(lines);
          if !AllTargetList(adds) then Fail(AddLineMissingList)
          else if |adds| < 1 then Fail(NoAddLines)
          else if |adds| != expected then Fail(CountMismatch)
          else Pass
  }

  /** `_self_check_rsc`: the checks on the file's text, in the order the
      source makes them; the first that fails names the outcome. */
  function SelfCheckRsc(id: string, contents: string): (r: Outcome<CheckError>)
    ensures !Contains(contents, RemoveLine(id)) ==> r == Fail(RemoveLineMissing)
  {
    var remove := RemoveLine(id);
    if !Contains(contents, remove) then Fail(RemoveLineMissing)
    else CheckLines(remove, SplitLines(contents))
  }

  /** The line `remove` occurs and no command precedes it. */
  ghost predicate FirstCommandIs(lines: seq<string>, remove: string) {
    exists i :: 0 <= i < |lines| && lines[i] == remove && forall j :: 0 <= j < i ==> !IsCommand(lines[j])
  }

  /** Line `k` is the first count header. */
  ghost predicate FirstCountLineAt(lines: seq<string>, k: int) {
    0 <= k < |lines| && IsCountLine(lines[k]) && forall j :: 0 <= j < k ==> !IsCountLine(lines[j])
  }

  /** The first count header states the number `n`. */
  ghost predicate CountHeaderStates(lines: seq<string>, n: int) {
    exists k :: FirstCountLineAt(lines, k) && CountValue(lines[k]) == Some(n)
  }

  /** Every add command targets the list `$AddressList`. */
  ghost predicate AddsTargetList(lines: seq<string>) {
    forall j :: 0 <= j < |lines| && IsAddLine(lines[j]) ==> Contains(lines[j], ListMarker)
  }

  /** What acceptable artifact lines look like, stated over line positions:
      no command precedes the remove command, the first count header states
      the number of add commands, every add command targets `$AddressList`,
      and there is at least one. */
  ghost predicate LinesAccepted(remove: string, lines: seq<string>) {
    FirstCommandIs(lines, remove)
    && CountHeaderStates(lines, |AddLinesOf(lines)|)
    && AddsTargetList(lines)
    && |AddLinesOf(lines)| >= 1
  }

  /** An acceptable artifact: it holds the resource's remove command and its
      lines are acceptable. */
  ghost predicate Accepted(id: string, contents: string) {
    Contains(contents, RemoveLine(id)) && LinesAccepted(RemoveLine(id), SplitLines(contents))
  }

  /** The first index satisfying a "first such line" description is unique. */
  lemma FirstIndexUnique(lines: seq<string>, i: int, i': int, p: string -> bool)
    requires 0 <= i < |lines| && 0 <= i' < |lines|
    requires p(lines[i]) && p(lines[i'])
    requires forall j :: 0 <= j < i ==> !p(lines[j])
    requires forall j :: 0 <= j < i' ==> !p(lines[j])
    ensures i == i'
  {
  }

  lemma FirstCommandMeans(lines: seq<string>, remove: string)
    requires IsCommand(remove)
    ensures FirstCommand(lines) == Some(remove) <==> FirstCommandIs(lines, remove)
  {
    var fc := FirstCommand(lines);
    if FirstCommandIs(lines, remove) {
      var i :| 0 <= i < |lines| && lines[i] == remove && forall j :: 0 <= j < i ==> !IsCommand(lines[j]);
      var i' :| 0 <= i' < |lines| && lines[i'] == fc.value && IsCommand(lines[i'])
                && forall j :: 0 <= j < i' ==> !IsCommand(lines[j]);
      FirstIndexUnique(lines, i, i', IsCommand);
    }
  }

  lemma CountHeaderMeans(lines: seq<string>, n: int)
    ensures (FirstCountLine(lines).Some? && CountValue(FirstCountLine(lines).value) == Some(n))
            <==> CountHeaderStates(lines, n)
  {
    var cl := FirstCountLine(lines);
    if cl.Some? {
      var k' :| 0 <= k' < |lines| && lines[k'] == cl.value && IsCountLine(lines[k'])
                && forall j :: 0 <= j < k' ==> !IsCountLine(lines[j]);
      assert FirstCountLineAt(lines, k');
      if CountHeaderStates(lines, n) {
        var k :| FirstCountLineAt(lines, k) && CountValue(lines[k]) == Some(n);
        FirstIndexUnique(lines, k, k', IsCountLine);
      }
    }
  }

  lemma AddsTargetListMeans(lines: seq<string>)
    ensures AllTargetList(AddLinesOf(lines)) <==> AddsTargetList(lines)
  {
    var adds := AddLinesOf(lines);
    if AllTargetList(adds) {
      forall j | 0 <= j < |lines| && IsAddLine(lines[j]) ensures Contains(lines[j], ListMarker) {
        assert lines[j] in adds;
      }
    }
    if AddsTargetList(lines) {
      forall l | l in adds ensures Contains(l, ListMarker) {
        var j :| 0 <= j < |lines| && lines[j] == l;
      }
    }
  }

  /** The line checks pass exactly on acceptable lines. */
  lemma CheckLinesMeansAccepted(remove: string, lines: seq<string>)
    requires IsCommand(remove)
    ensures CheckLines(remove, lines) == Pass <==> LinesAccepted(remove, lines)
  {
    FirstCommandMeans(lines, remove);
    CountHeaderMeans(lines, |AddLinesOf(lines)|);
    AddsTargetListMeans(lines);
  }

  /** The self-check passes exactly on the acceptable artifacts. */
  lemma SelfCheckMeansAccepted(id: string, contents: string)
    ensures SelfCheckRsc(id, contents) == Pass <==> Accepted(id, contents)
  {
    RemoveLineIsCommand(id);
    CheckLinesMeansAccepted(RemoveLine(id), SplitLines(contents));
  }

  /** Text made of digits, dots and slashes holds no line boundary. */
  lemma PlainTextHasNoBreaks(s: string)
    requires forall i :: 0 <= i < |s| ==> IsDigit(s[i]) || s[i] == '.' || s[i] == '/'
    ensures NoLineBreaks(s)
  {
    forall c | c in s ensures !IsLineBreak(c) {
      var i :| 0 <= i < |s| && s[i] == c;
    }
  }

  lemma AddLineIsAdd(id: string, n: Network)
    requires Valid(n)
    ensures IsAddLine(AddLine(id, n)) && Contains(AddLine(id, n), ListMarker)
  {
    var start := AddPrefix + ListMarker;
    var withAddress := start + " address=";
    var withNetwork := withAddress + Format(n);
    var withSpace := withNetwork + " ";
    assert start[..|AddPrefix|] == AddPrefix;
    StartsWithExtend(start, AddPrefix, " address=");
    StartsWithExtend(withAddress, AddPrefix, Format(n));
    StartsWithExtend(withNetwork, AddPrefix, " ");
    StartsWithExtend(withSpace, AddPrefix, OwnerTag(id));
    ContainsSuffix(AddPrefix, ListMarker);
    ContainsExtend(start, " address=", ListMarker);
    ContainsExtend(withAddress, Format(n), ListMarker);
    ContainsExtend(withNetwork, " ", ListMarker);
    ContainsExtend(withSpace, OwnerTag(id), ListMarker);
  }

  /** Printable ASCII text holds no line boundary. */
  lemma PrintableHasNoBreaks(s: string)
    requires forall c :: c in s ==> ' ' <= c <= '~'
    ensures NoLineBreaks(s)
  {
  }

  /** None of the fixed pieces of the commands holds a line boundary. */
  lemma CommandPiecesHaveNoBreaks()
    ensures NoLineBreaks(ListMenu)
    ensures NoLineBreaks("add ")
    ensures NoLineBreaks("remove [find where ")
    ensures NoLineBreaks("]")
  {
    PrintableHasNoBreaks(ListMenu);
    PrintableHasNoBreaks("add ");
    PrintableHasNoBreaks("remove [find where ");
    PrintableHasNoBreaks("]");
  }

  /** None of the fixed pieces of an add command holds a line boundary. */
  lemma AddPiecesHaveNoBreaks()
    ensures NoLineBreaks(ListMarker)
    ensures NoLineBreaks(" address=")
    ensures NoLineBreaks(" ")
  {
    PrintableHasNoBreaks(ListMarker);
    PrintableHasNoBreaks(" address=");
    PrintableHasNoBreaks(" ");
  }

  /** None of the fixed pieces of the owner tag holds a line boundary. */
  lemma TagPiecesHaveNoBreaks()
    ensures NoLineBreaks("comment=\"iplist:auto:")
    ensures NoLineBreaks("\"")
  {
    PrintableHasNoBreaks("comment=\"iplist:auto:");
    PrintableHasNoBreaks("\"");
  }

  /** None of the fixed pieces of the header holds a line boundary. */
  lemma HeaderPiecesHaveNoBreaks()
    ensures NoLineBreaks(FormatMarker)
    ensures NoLineBreaks("# resource=")
    ensures NoLineBreaks("# generated=")
    ensures NoLineBreaks(CountPrefix)
  {
    PrintableHasNoBreaks(FormatMarker);
    PrintableHasNoBreaks("# resource=");
    PrintableHasNoBreaks("# generated=");
    PrintableHasNoBreaks(CountPrefix);
  }

  /** None of the fixed pieces of the artifact holds a line boundary. */
  lemma PiecesHaveNoBreaks()
    ensures NoLineBreaks(ListMenu)
    ensures NoLineBreaks("add ")
    ensures NoLineBreaks("remove [find where ")
    ensures NoLineBreaks("]")
    ensures NoLineBreaks(ListMarker)
    ensures NoLineBreaks(" address=")
    ensures NoLineBreaks(" ")
    ensures NoLineBreaks("comment=\"iplist:auto:")
    ensures NoLineBreaks("\"")
    ensures NoLineBreaks(FormatMarker)
    ensures NoLineBreaks("# resource=")
    ensures NoLineBreaks("# generated=")
    ensures NoLineBreaks(CountPrefix)
  {
    CommandPiecesHaveNoBreaks();
    AddPiecesHaveNoBreaks();
    TagPiecesHaveNoBreaks();
    HeaderPiecesHaveNoBreaks();
  }

  lemma OwnerTagHasNoBreaks(id: string)
    requires NoLineBreaks(id)
    ensures NoLineBreaks(OwnerTag(id))
  {
    PiecesHaveNoBreaks();
    NoLineBreaksConcat("comment=\"iplist:auto:", id);
    NoLineBreaksConcat("comment=\"iplist:auto:" + id, "\"");
  }

  lemma AddLineHasNoBreaks(id: string, n: Network)
    requires Valid(n)
    requires NoLineBreaks(id)
    ensures NoLineBreaks(AddLine(id, n))
  {
    var f := Format(n);
    PlainTextHasNoBreaks(f);
    OwnerTagHasNoBreaks(id);
    PiecesHaveNoBreaks();
    NoLineBreaksConcat(ListMenu, "add ");
    NoLineBreaksConcat(AddPrefix, ListMarker);
    NoLineBreaksConcat(AddPrefix + ListMarker, " address=");
    NoLineBreaksConcat(AddPrefix + ListMarker + " address=", f);
    NoLineBreaksConcat(AddPrefix + ListMarker + " address=" + f, " ");
    NoLineBreaksConcat(AddPrefix + ListMarker + " address=" + f + " ", OwnerTag(id));
  }

  lemma AddLineFacts(id: string, n: Network)
    requires Valid(n)
    requires NoLineBreaks(id)
    ensures IsAddLine(AddLine(id, n))
    ensures Contains(AddLine(id, n), ListMarker)
    ensures NoLineBreaks(AddLine(id, n))
  {
    AddLineIsAdd(id, n);
    AddLineHasNoBreaks(id, n);
  }

  /** Add lines are recognised as such and nothing else is dropped. */
  lemma {:induction false} AddLinesOfAllAdds(lines: seq<string>)
    requires forall i :: 0 <= i < |lines| ==> IsAddLine(lines[i])
    ensures AddLinesOf(lines) == lines
  {
    if lines != [] {
      AddLinesOfAllAdds(lines[1..]);
    }
  }

  /** The rendered header and remove command hold no add command. */
  lemma {:induction false} AddLinesOfNone(lines: seq<string>)
    requires forall i :: 0 <= i < |lines| ==> !IsAddLine(lines[i])
    ensures AddLinesOf(lines) == []
  {
    if lines != [] {
      AddLinesOfNone(lines[1..]);
    }
  }

  lemma RemoveLineHasNoBreaks(id: string)
    requires NoLineBreaks(id)
    ensures NoLineBreaks(RemoveLine(id))
  {
    OwnerTagHasNoBreaks(id);
    PiecesHaveNoBreaks();
    NoLineBreaksConcat(ListMenu, "remove [find where ");
    NoLineBreaksConcat(ListMenu + "remove [find where ", OwnerTag(id));
    NoLineBreaksConcat(ListMenu + "remove [find where " + OwnerTag(id), "]");
  }

  lemma CountLineHasNoBreaks(count: nat)
    ensures NoLineBreaks(CountPrefix + DecimalText(count))
  {
    PlainTextHasNoBreaks(DecimalText(count));
    PiecesHaveNoBreaks();
    NoLineBreaksConcat(CountPrefix, DecimalText(count));
  }

  /** A line made of the count prefix and some text is a count header
      whose value part is that text. */
  lemma CountLineSplit(digits: string)
    ensures IsCountLine(CountPrefix + digits)
    ensures AfterFirst(CountPrefix + digits, '=') == digits
  {
    var line := CountPrefix + digits;
    assert line[..|CountPrefix|] == CountPrefix;
    assert forall j :: 0 <= j < |CountPrefix| ==> line[j] == CountPrefix[j];
    assert line[7] == '=';
    assert forall j :: 0 <= j < 7 ==> line[j] != '=';
    IndexOfFirst(line, '=', 7);
    assert line[8..] == digits;
  }

  /** The count header states the count in a form `int()` reads back. */
  lemma CountLineFacts(count: nat)
    ensures IsCountLine(CountPrefix + DecimalText(count))
    ensures CountValue(CountPrefix + DecimalText(count)) == Some(count)
  {
    CountLineSplit(DecimalText(count));
    ParseIntOfDecimal(count);
  }

  /** A comment or blank line is neither a command nor an add command. */
  predicate IsCommentOrBlank(line: string) {
    line == [] || line[0] == '#'
  }

  lemma HeaderHasNoBreaks(id: string, generated: string, count: nat)
    requires NoLineBreaks(id) && NoLineBreaks(generated)
    ensures forall l :: l in Header(id, generated, count) ==> NoLineBreaks(l)
  {
    var header := Header(id, generated, count);
    CountLineHasNoBreaks(count);
    PiecesHaveNoBreaks();
    NoLineBreaksConcat("# resource=", id);
    NoLineBreaksConcat("# generated=", generated);
  }

  lemma HeaderIsComments(id: string, generated: string, count: nat)
    ensures forall l :: l in Header(id, generated, count) ==> IsCommentOrBlank(l)
  {
    var header := Header(id, generated, count);
    assert header[1][0] == '#' && header[2][0] == '#' && header[3][0] == '#';
  }

  /** A line whose third character differs from the count header's. */
  lemma NotCountLine(line: string)
    requires |line| >= 3 && line[2] != 'c'
    ensures !IsCountLine(line)
  {
    assert CountPrefix[2] == 'c';
  }

  lemma HeaderCountValue(id: string, generated: string, count: nat)
    ensures IsCountLine(Header(id, generated, count)[3])
    ensures CountValue(Header(id, generated, count)[3]) == Some(count)
  {
    CountLineFacts(count);
  }

  lemma HeaderOtherLines(id: string, generated: string, count: nat)
    ensures var header := Header(id, generated, count);
      !IsCountLine(header[0]) && !IsCountLine(header[1]) && !IsCountLine(header[2])
  {
    var header := Header(id, generated, count);
    assert FormatMarker[2] == 'i';
    NotCountLine(FormatMarker);
    var resource := "# resource=";
    assert resource[2] == 'r';
    assert (resource + id)[2] == 'r';
    NotCountLine(resource + id);
    var generatedAt := "# generated=";
    assert generatedAt[2] == 'g';
    assert (generatedAt + generated)[2] == 'g';
    NotCountLine(generatedAt + generated);
  }

  lemma RenderedLinesHaveNoBreaks(id: string, generated: string, networks: seq<Network>)
    requires forall n :: n in networks ==> Valid(n)
    requires NoLineBreaks(id) && NoLineBreaks(generated)
    ensures forall l :: l in RenderedLines(id, generated, networks) ==> NoLineBreaks(l)
  {
    var header := Header(id, generated, |networks|);
    var adds := AddLines(id, networks);
    HeaderHasNoBreaks(id, generated, |networks|);
    RemoveLineHasNoBreaks(id);
    forall l | l in adds ensures NoLineBreaks(l) {
      var i :| 0 <= i < |adds| && adds[i] == l;
      AddLineHasNoBreaks(id, networks[i]);
    }
  }

  /** The rendered text holds no carriage return and ends with exactly one
      "\n": its last character is "\n" and the one before it is not. */
  lemma RenderedTextShape(id: string, generated: string, networks: seq<Network>)
    requires forall n :: n in networks ==> Valid(n)
    requires NoLineBreaks(id) && NoLineBreaks(generated)
    ensures var text := RenderedText(id, generated, networks);
      '\r' !in text && |text| >= 2 && text[|text| - 1] == '\n' && text[|text| - 2] != '\n'
  {
    RenderedLinesHaveNoBreaks(id, generated, networks);
    RenderedLastLine(id, generated, networks);
    TerminatedLinesShape(RenderedLines(id, generated, networks));
  }

  /** The last rendered line is a command, so it is not empty. */
  lemma RenderedLastLine(id: string, generated: string, networks: seq<Network>)
    requires forall n :: n in networks ==> Valid(n)
    ensures var lines := RenderedLines(id, generated, networks);
      |lines| >= 1 && lines[|lines| - 1] != [] && lines[|lines| - 1][0] == '/'
  {
    var lines := RenderedLines(id, generated, networks);
    RenderedLinesFront(id, generated, networks);
    if networks == [] {
      assert lines[|lines| - 1] == RemoveLine(id);
    } else {
      assert lines[|lines| - 1] == AddLine(id, networks[|networks| - 1]);
    }
  }

  /** The add commands of the rendered lines are exactly the rendered add
      lines, in order. */
  lemma RenderedAddLines(id: string, generated: string, networks: seq<Network>)
    requires forall n :: n in networks ==> Valid(n)
    ensures AddLinesOf(RenderedLines(id, generated, networks)) == AddLines(id, networks)
  {
    var header := Header(id, generated, |networks|);
    var adds := AddLines(id, networks);
    HeaderIsComments(id, generated, |networks|);
    RemoveLineIsCommand(id);
    forall i | 0 <= i < |adds| ensures IsAddLine(adds[i]) {
      AddLineIsAdd(id, networks[i]);
    }
    AddLinesOfAllAdds(adds);
    var front := header + [RemoveLine(id)];
    assert AddPrefix[0] == '/';
    forall i | 0 <= i < |front| ensures !IsAddLine(front[i]) {
      if i < 5 {
        assert front[i] in header;
      }
    }
    AddLinesOfNone(front);
    AddLinesOfAppend(front, adds);
  }

  /** Lines whose fourth line is the first count header state its value. */
  lemma CountHeaderFourth(lines: seq<string>, n: int)
    requires |lines| >= 4
    requires !IsCountLine(lines[0]) && !IsCountLine(lines[1]) && !IsCountLine(lines[2])
    requires IsCountLine(lines[3]) && CountValue(lines[3]) == Some(n)
    ensures CountHeaderStates(lines, n)
  {
    assert FirstCountLineAt(lines, 3);
  }

  /** In the rendered lines no command precedes the remove command. */
  lemma RenderedRemoveFirst(id: string, generated: string, networks: seq<Network>)
    requires forall n :: n in networks ==> Valid(n)
    ensures FirstCommandIs(RenderedLines(id, generated, networks), RemoveLine(id))
  {
    var header := Header(id, generated, |networks|);
    var lines := RenderedLines(id, generated, networks);
    HeaderIsComments(id, generated, |networks|);
    assert lines[5] == RemoveLine(id);
    forall j | 0 <= j < 5 ensures !IsCommand(lines[j]) {
      assert lines[j] == header[j] && header[j] in header;
    }
  }

  /** The first count header of the rendered lines states the number of
      networks. */
  lemma RenderedCountHeader(id: string, generated: string, networks: seq<Network>)
    requires forall n :: n in networks ==> Valid(n)
    ensures CountHeaderStates(RenderedLines(id, generated, networks), |networks|)
  {
    RenderedLinesFront(id, generated, networks);
    HeaderOtherLines(id, generated, |networks|);
    HeaderCountValue(id, generated, |networks|);
    CountHeaderFourth(RenderedLines(id, generated, networks), |networks|);
  }

  /** The lines of the rendered text are the rendered lines. */
  lemma RenderedTextLines(id: string, generated: string, networks: seq<Network>)
    requires forall n :: n in networks ==> Valid(n)
    requires NoLineBreaks(id) && NoLineBreaks(generated)
    ensures SplitLines(RenderedText(id, generated, networks)) == RenderedLines(id, generated, networks)
  {
    RenderedLinesHaveNoBreaks(id, generated, networks);
    SplitLinesOfJoined(RenderedLines(id, generated, networks));
  }

  /** The rendered text holds the remove command. */
  lemma RenderedContainsRemove(id: string, generated: string, networks: seq<Network>)
    requires forall n :: n in networks ==> Valid(n)
    ensures Contains(RenderedText(id, generated, networks), RemoveLine(id))
  {
    var lines := RenderedLines(id, generated, networks);
    assert lines[5] == RemoveLine(id);
    JoinContainsPart(lines, '\n', 5);
    ContainsExtend(JoinWith(lines, '\n'), "\n", RemoveLine(id));
  }

  /** Every rendered add command targets `$AddressList`. */
  lemma RenderedAddsTargetList(id: string, networks: seq<Network>)
    requires forall n :: n in networks ==> Valid(n)
    ensures AllTargetList(AddLines(id, networks))
  {
    var adds := AddLines(id, networks);
    forall l | l in adds ensures Contains(l, ListMarker) {
      var i :| 0 <= i < |adds| && adds[i] == l;
      AddLineIsAdd(id, networks[i]);
    }
  }

  /** The self-check never rejects what `_render_rsc` produced for a
      non-empty network list, whatever the resource id and timestamp (so
      long as neither holds a line boundary). */
  lemma RenderThenCheck(id: string, generated: string, networks: seq<Network>)
    requires |networks| >= 1 && forall n :: n in networks ==> Valid(n)
    requires NoLineBreaks(id) && NoLineBreaks(generated)
    ensures SelfCheckRsc(id, RenderedText(id, generated, networks)) == Pass
  {
    var lines := RenderedLines(id, generated, networks);
    var text := RenderedText(id, generated, networks);
    RenderedTextLines(id, generated, networks);
    RenderedContainsRemove(id, generated, networks);
    RenderedRemoveFirst(id, generated, networks);
    RenderedAddLines(id, generated, networks);
    RenderedCountHeader(id, generated, networks);
    RenderedAddsTargetList(id, networks);
    AddsTargetListMeans(lines);
    assert LinesAccepted(RemoveLine(id), lines);
    SelfCheckMeansAccepted(id, text);
  }

  /** Lines that pass every check up to the add commands but hold none
      fail with `NoAddLines`. */
  lemma CheckLinesWithoutAdds(remove: string, lines: seq<string>)
    requires FirstCommand(lines) == Some(remove)
    requires FirstCountLine(lines).Some? && CountValue(FirstCountLine(lines).value).Some?
    requires AddLinesOf(lines) == []
    ensures CheckLines(remove, lines) == Fail(NoAddLines)
  {
    assert AllTargetList([]);
  }

  /** An artifact with no networks is rejected: it has no add command. */
  lemma RenderEmptyRejected(id: string, generated: string)
    requires NoLineBreaks(id) && NoLineBreaks(generated)
    ensures SelfCheckRsc(id, RenderedText(id, generated, [])) == Fail(NoAddLines)
  {
    var lines := RenderedLines(id, generated, []);
    var text := RenderedText(id, generated, []);
    RenderedTextLines(id, generated, []);
    RenderedContainsRemove(id, generated, []);
    RenderedRemoveFirst(id, generated, []);
    RemoveLineIsCommand(id);
    FirstCommandMeans(lines, RemoveLine(id));
    RenderedCountHeader(id, generated, []);
    CountHeaderMeans(lines, 0);
    RenderedAddLines(id, generated, []);
    CheckLinesWithoutAdds(RemoveLine(id), lines);
    assert SelfCheckRsc(id, text) == CheckLines(RemoveLine(id), SplitLines(text));
  }
}

=== FILE: text.dfy ===
/** The string operations the generator relies on, written out for text that
    is a sequence of Unicode code points: `startswith`, `in`, `split`,
    `"\n".join`, `splitlines`, `strip`, `int()` on decimal text, decimal
    formatting of naturals, and Python's code-point ordering of strings. */
module Text {
  import opened Wrappers

  predicate StartsWith(s: string, prefix: string) {
    |prefix| <= |s| && s[..|prefix|] == prefix
  }

  predicate EndsWith(s: string, suffix: string) {
    |suffix| <= |s| && s[|s| - |suffix|..] == suffix
  }

  /** `sub` occurs in `s` starting at position `i`. */
  predicate OccursAt(s: string, sub: string, i: int) {
    0 <= i <= |s| - |sub| && s[i..i + |sub|] == sub
  }

  /** Python's `sub in s`. */
  predicate Contains(s: string, sub: string) {
    exists i :: 0 <= i <= |s| && OccursAt(s, sub, i)
  }

  lemma ContainsAt(s: string, sub: string, i: int)
    requires OccursAt(s, sub, i)
    ensures Contains(s, sub)
  {
  }

  /** A text starts with any text it was extended from. */
  lemma StartsWithExtend(s: string, prefix: string, more: string)
    requires StartsWith(s, prefix)
    ensures StartsWith(s + more, prefix)
  {
    assert (s + more)[..|prefix|] == s[..|prefix|];
  }

  /** `sub` occurs in `a + sub`. */
  lemma ContainsSuffix(a: string, sub: string)
    ensures Contains(a + sub, sub)
  {
    assert (a + sub)[|a|..|a| + |sub|] == sub;
    ContainsAt(a + sub, sub, |a|);
  }

  /** A substring of `a` is a substring of `a + b` and of `b + a`. */
  lemma ContainsExtend(a: string, b: string, sub: string)
    requires Contains(a, sub)
    ensures Contains(a + b, sub) && Contains(b + a, sub)
  {
    var i :| 0 <= i <= |a| && OccursAt(a, sub, i);
    assert 0 <= i <= |a| - |sub| && a[i..i + |sub|] == sub;
    assert (a + b)[i..i + |sub|] == sub;
    assert OccursAt(a + b, sub, i);
    assert (b + a)[|b| + i..|b| + i + |sub|] == sub;
    assert OccursAt(b + a, sub, |b| + i);
  }

  /** Position of the first `c` in `s`, or `|s|` when there is none. */
  function IndexOf(s: string, c: char): (i: nat)
    ensures i <= |s|
    ensures i < |s| ==> s[i] == c
    ensures forall j :: 0 <= j < i ==> s[j] != c
  {
    if s == [] then 0 else if s[0] == c then 0 else 1 + IndexOf(s[1..], c)
  }

  /** `IndexOf` finds the first occurrence. */
  lemma {:induction false} IndexOfFirst(s: string, c: char, k: nat)
    requires k < |s| && s[k] == c
    requires forall j :: 0 <= j < k ==> s[j] != c
    ensures IndexOf(s, c) == k
  {
    if k > 0 {
      IndexOfFirst(s[1..], c, k - 1);
    }
  }

  /** The text after the first `c` (Python's `s.split(c, 1)[1]`), or "" when
      `c` does not occur. */
  function AfterFirst(s: string, c: char): (r: string)
    ensures c in s ==> r == s[IndexOf(s, c) + 1..]
  {
    var i := IndexOf(s, c);
    if i < |s| then s[i + 1..] else ""
  }

  /** Python's `s.split(sep)` for a one-character separator. */
  function Split(s: string, sep: char): (parts: seq<string>)
    ensures |parts| >= 1
    decreases |s|
  {
    var i := IndexOf(s, sep);
    if i == |s| then [s] else [s[..i]] + Split(s[i + 1..], sep)
  }

  /** No part of a split holds the separator. */
  lemma {:induction false} SplitPartsFree(s: string, sep: char)
    ensures forall p :: p in Split(s, sep) ==> sep !in p
    decreases |s|
  {
    var i := IndexOf(s, sep);
    if i < |s| {
      SplitPartsFree(s[i + 1..], sep);
      assert sep !in s[..i] by {
        assert forall j :: 0 <= j < i ==> s[..i][j] == s[j];
      }
    }
  }

  /** Python's `sep.join(parts)` for a one-character separator. */
  function JoinWith(parts: seq<string>, sep: char): (s: string)
    ensures |parts| == 1 ==> s == parts[0]
  {
    if |parts| == 0 then ""
    else if |parts| == 1 then parts[0]
    else parts[0] + [sep] + JoinWith(parts[1..], sep)
  }

  /** A character that is not the separator and occurs in no part does not
      occur in the joined text. */
  lemma {:induction false} JoinWithAvoids(parts: seq<string>, sep: char, c: char)
    requires c != sep
    requires forall p :: p in parts ==> c !in p
    ensures c !in JoinWith(parts, sep)
    decreases |parts|
  {
    if |parts| >= 1 {
      assert parts[0] in parts;
    }
    if |parts| > 1 {
      assert forall p :: p in parts[1..] ==> p in parts;
      JoinWithAvoids(parts[1..], sep, c);
    }
  }

  /** The joined text ends with the last part. */
  lemma {:induction false} JoinWithLast(parts: seq<string>, sep: char)
    requires |parts| >= 1
    ensures EndsWith(JoinWith(parts, sep), parts[|parts| - 1])
    decreases |parts|
  {
    if |parts| > 1 {
      var rest := JoinWith(parts[1..], sep);
      var last := parts[|parts| - 1];
      JoinWithLast(parts[1..], sep);
      assert parts[1..][|parts[1..]| - 1] == last;
      var s := parts[0] + [sep] + rest;
      assert s[|s| - |rest|..] == rest;
      assert s[|s| - |last|..] == rest[|rest| - |last|..];
    }
  }

  /** Joining then splitting gives the parts back when no part holds the separator. */
  lemma {:induction false} SplitJoin(parts: seq<string>, sep: char)
    requires |parts| >= 1
    requires forall p :: p in parts ==> sep !in p
    ensures Split(JoinWith(parts, sep), sep) == parts
  {
    assert parts[0] in parts;
    if |parts| > 1 {
      var rest := JoinWith(parts[1..], sep);
      var s := parts[0] + [sep] + rest;
      assert IndexOf(s, sep) == |parts[0]| by {
        assert s[|parts[0]|] == sep;
        assert forall j :: 0 <= j < |parts[0]| ==> s[j] == parts[0][j];
        IndexOfFirst(s, sep, |parts[0]|);
      }
      assert s[..|parts[0]|] == parts[0];
      assert s[|parts[0]| + 1..] == rest;
      SplitJoin(parts[1..], sep);
    }
  }

  /** A part free of the separator is split off whole. */
  lemma SplitCons(part: string, rest: string, sep: char)
    requires sep !in part
    ensures Split(part + ([sep] + rest), sep) == [part] + Split(rest, sep)
  {
    var s := part + ([sep] + rest);
    assert s[|part|] == sep;
    assert forall j :: 0 <= j < |part| ==> s[j] == part[j];
    IndexOfFirst(s, sep, |part|);
    assert s[..|part|] == part;
    assert s[|part| + 1..] == rest;
  }

  /** Text free of the separator is a single part. */
  lemma SplitSingle(part: string, sep: char)
    requires sep !in part
    ensures Split(part, sep) == [part]
  {
  }

  lemma SplitTwo(p0: string, p1: string, sep: char)
    requires sep !in p0 && sep !in p1
    ensures var parts := Split(p0 + ([sep] + p1), sep);
      |parts| == 2 && parts[0] == p0 && parts[1] == p1
  {
    SplitSingle(p1, sep);
    SplitCons(p0, p1, sep);
  }

  lemma SplitThree(p0: string, p1: string, p2: string, sep: char)
    requires sep !in p0 && sep !in p1 && sep !in p2
    ensures var parts := Split(p0 + ([sep] + (p1 + ([sep] + p2))), sep);
      |parts| == 3 && parts[0] == p0 && parts[1] == p1 && parts[2] == p2
  {
    SplitTwo(p1, p2, sep);
    SplitCons(p0, p1 + ([sep] + p2), sep);
  }

  /** Four parts free of the separator, written with it between them,
      split back into those parts. */
  lemma SplitFour(p0: string, p1: string, p2: string, p3: string, sep: char)
    requires sep !in p0 && sep !in p1 && sep !in p2 && sep !in p3
    ensures var parts := Split(p0 + ([sep] + (p1 + ([sep] + (p2 + ([sep] + p3))))), sep);
      |parts| == 4 && parts[0] == p0 && parts[1] == p1 && parts[2] == p2 && parts[3] == p3
  {
    SplitThree(p1, p2, p3, sep);
    SplitCons(p0, p1 + ([sep] + (p2 + ([sep] + p3))), sep);
  }

  /** Splitting then joining gives the text back. */
  /** Joining four parts, written out. */
  lemma JoinFour(p0: string, p1: string, p2: string, p3: string, sep: char)
    ensures JoinWith([p0, p1, p2, p3], sep) == p0 + ([sep] + (p1 + ([sep] + (p2 + ([sep] + p3)))))
  {
    var parts := [p0, p1, p2, p3];
    assert parts[1..] == [p1, p2, p3];
    assert parts[1..][1..] == [p2, p3];
    assert [p2, p3][1..] == [p3];
    assert JoinWith([p2, p3], sep) == p2 + [sep] + p3;
    assert JoinWith([p1, p2, p3], sep) == p1 + [sep] + (p2 + [sep] + p3);
  }

  lemma {:induction false} JoinSplit(s: string, sep: char)
    ensures JoinWith(Split(s, sep), sep) == s
    decreases |s|
  {
    var i := IndexOf(s, sep);
    if i < |s| {
      var rest := s[i + 1..];
      var tail := Split(rest, sep);
      var parts := [s[..i]] + tail;
      assert Split(s, sep) == parts;
      assert parts[0] == s[..i] && parts[1..] == tail;
      assert JoinWith(parts, sep) == s[..i] + [sep] + JoinWith(tail, sep);
      JoinSplit(rest, sep);
      assert s == s[..i] + [sep] + rest;
    }
  }

  /** Position of the first line boundary character in `s`, or `|s|`. */
  function BreakAt(s: string): (i: nat)
    ensures i <= |s|
    ensures i < |s| ==> IsLineBreak(s[i])
    ensures forall j :: 0 <= j < i ==> !IsLineBreak(s[j])
  {
    if s == [] then 0 else if IsLineBreak(s[0]) then 0 else 1 + BreakAt(s[1..])
  }

  /** `BreakAt` finds the first boundary. */
  lemma {:induction false} BreakAtFirst(s: string, k: nat)
    requires k < |s| && IsLineBreak(s[k])
    requires forall j :: 0 <= j < k ==> !IsLineBreak(s[j])
    ensures BreakAt(s) == k
  {
    if k > 0 {
      BreakAtFirst(s[1..], k - 1);
    }
  }

  /** Python's `s.splitlines()`: lines end at any line boundary character,
      "\r\n" is one boundary, "" has no lines and a final boundary does
      not open an empty last line. */
  function SplitLines(s: string): (lines: seq<string>)
    ensures forall l :: l in lines ==> NoLineBreaks(l)
    ensures |lines| <= |s|
    decreases |s|
  {
    if s == [] then []
    else
      var i := BreakAt(s);
      if i == |s| then [s]
      else
        var next := if s[i] == '\r' && i + 1 < |s| && s[i + 1] == '\n' then i + 2 else i + 1;
        [s[..i]] + SplitLines(s[next..])
  }

  /** A line ended by "\n" is split off whole. */
  lemma SplitLinesCons(head: string, rest: string)
    requires NoLineBreaks(head)
    ensures SplitLines(head + "\n" + rest) == [head] + SplitLines(rest)
  {
    var s := head + "\n" + rest;
    assert BreakAt(s) == |head| by {
      assert s[|head|] == '\n';
      assert forall j :: 0 <= j < |head| ==> s[j] == head[j];
      BreakAtFirst(s, |head|);
    }
    assert s[..|head|] == head;
    assert s[|head| + 1..] == rest;
  }

  /** `"\n".join(lines) + "\n"` splits back into `lines` when no line holds
      a boundary character. */
  lemma {:induction false} SplitLinesOfJoined(lines: seq<string>)
    requires |lines| >= 1
    requires forall l :: l in lines ==> NoLineBreaks(l)
    ensures SplitLines(JoinWith(lines, '\n') + "\n") == lines
  {
    var head := lines[0];
    assert head in lines;
    if |lines| == 1 {
      SplitLinesCons(head, "");
      assert head + "\n" + "" == JoinWith(lines, '\n') + "\n";
    } else {
      var tail := lines[1..];
      var joined := JoinWith(tail, '\n');
      assert JoinWith(lines, '\n') == head + ['\n'] + joined;
      assert JoinWith(lines, '\n') + "\n" == head + "\n" + (joined + "\n");
      SplitLinesCons(head, joined + "\n");
      assert forall l :: l in tail ==> l in lines;
      SplitLinesOfJoined(tail);
      assert lines == [head] + tail;
    }
  }

  /** Every part occurs in the joined text. */
  lemma {:induction false} JoinContainsPart(parts: seq<string>, sep: char, k: nat)
    requires k < |parts|
    ensures Contains(JoinWith(parts, sep), parts[k])
  {
    if |parts| == 1 {
      ContainsAt(parts[0], parts[0], 0);
    } else if k == 0 {
      var s := JoinWith(parts, sep);
      assert s[0..|parts[0]|] == parts[0];
      ContainsAt(s, parts[0], 0);
    } else {
      JoinContainsPart(parts[1..], sep, k - 1);
      ContainsExtend(JoinWith(parts[1..], sep), [], parts[k]);
      ContainsExtend(JoinWith(parts[1..], sep), parts[0] + [sep], parts[k]);
    }
  }

  /** Python's line boundaries for `str.splitlines`: \n, \r, \v, \f, \x1c,
      \x1d, \x1e, \x85, U+2028 and U+2029. */
  predicate IsLineBreak(c: char) {
    var k := c as int;
    k == 10 || k == 13 || k == 11 || k == 12 || 28 <= k <= 30 || k == 0x85 || k == 0x2028 || k == 0x2029
  }

  predicate NoLineBreaks(s: string) {
    forall c :: c in s ==> !IsLineBreak(c)
  }

  /** Lines free of line boundaries, the last one non-empty, joined by "\n"
      with a final "\n": no '\r', and exactly one "\n" at the end. */
  lemma TerminatedLinesShape(lines: seq<string>)
    requires |lines| >= 1 && lines[|lines| - 1] != []
    requires forall l :: l in lines ==> NoLineBreaks(l)
    ensures var text := JoinWith(lines, '\n') + "\n";
      '\r' !in text && |text| >= 2 && text[|text| - 1] == '\n' && text[|text| - 2] != '\n'
  {
    var joined := JoinWith(lines, '\n');
    var last := lines[|lines| - 1];
    assert IsLineBreak('\r') && IsLineBreak('\n');
    JoinWithAvoids(lines, '\n', '\r');
    JoinWithLast(lines, '\n');
    assert last in lines;
    assert joined[|joined| - 1] == last[|last| - 1];
    assert last[|last| - 1] in last;
  }

  lemma NoLineBreaksConcat(a: string, b: string)
    requires NoLineBreaks(a) && NoLineBreaks(b)
    ensures NoLineBreaks(a + b)
  {
    forall c | c in a + b ensures !IsLineBreak(c) {
      assert c in a || c in b;
    }
  }

  /** The characters for which Python's `str.isspace` holds (and which
      `str.strip()` removes). */
  predicate IsSpace(c: char) {
    var k := c as int;
    k == 32 || 9 <= k <= 13 || 28 <= k <= 31 || k == 0x85 || k == 0xA0 || k == 0x1680
    || 0x2000 <= k <= 0x200A || k == 0x2028 || k == 0x2029 || k == 0x202F || k == 0x205F || k == 0x3000
  }

  function StripLeft(s: string): string {
    if s != [] && IsSpace(s[0]) then StripLeft(s[1..]) else s
  }

  function StripRight(s: string): string {
    if s != [] && IsSpace(s[|s| - 1]) then StripRight(s[..|s| - 1]) else s
  }

  /** Python's `s.strip()`. */
  function Strip(s: string): string {
    StripRight(StripLeft(s))
  }

  /** `StripLeft` drops a run of white space from the front, and only that. */
  lemma {:induction false} StripLeftMeaning(s: string)
    ensures var r := StripLeft(s);
      |r| <= |s| && r == s[|s| - |r|..]
      && (r != [] ==> !IsSpace(r[0]))
      && forall i :: 0 <= i < |s| - |r| ==> IsSpace(s[i])
  {
    if s != [] && IsSpace(s[0]) {
      StripLeftMeaning(s[1..]);
      assert forall i :: 1 <= i < |s| ==> s[i] == s[1..][i - 1];
    }
  }

  /** `StripRight` drops a run of white space from the back, and only that. */
  lemma {:induction false} StripRightMeaning(s: string)
    ensures var r := StripRight(s);
      |r| <= |s| && r == s[..|r|]
      && (r != [] ==> !IsSpace(r[|r| - 1]))
      && forall i :: |r| <= i < |s| ==> IsSpace(s[i])
  {
    if s != [] && IsSpace(s[|s| - 1]) {
      StripRightMeaning(s[..|s| - 1]);
    }
  }

  /** `strip()` leaves no white space at either end, and text without white
      space unchanged. */
  lemma StripMeaning(s: string)
    ensures var r := Strip(s);
      (r != [] ==> !IsSpace(r[0]) && !IsSpace(r[|r| - 1]))
      && ((forall i :: 0 <= i < |s| ==> !IsSpace(s[i])) ==> r == s)
  {
    var left := StripLeft(s);
    StripLeftMeaning(s);
    StripRightMeaning(left);
    var r := StripRight(left);
    assert r != [] ==> r[0] == left[0];
    if forall i :: 0 <= i < |s| ==> !IsSpace(s[i]) {
      assert left == s;
      assert forall i :: 0 <= i < |left| ==> !IsSpace(left[i]);
    }
  }

  predicate IsDigit(c: char) {
    '0' <= c <= '9'
  }

  predicate AllDigits(s: string) {
    forall i :: 0 <= i < |s| ==> IsDigit(s[i])
  }

  function DigitValue(c: char): (d: nat)
    requires IsDigit(c)
    ensures d < 10
  {
    (c as int) - ('0' as int)
  }

  function DigitChar(d: nat): (c: char)
    requires d < 10
    ensures IsDigit(c) && DigitValue(c) == d
  {
    ((('0' as int) + d) as char)
  }

  /** The number a string of ASCII decimal digits denotes (leading zeros allowed). */
  function DecimalValue(s: string): (n: nat)
    requires AllDigits(s)
    decreases |s|
  {
    if s == [] then 0 else DecimalValue(s[..|s| - 1]) * 10 + DigitValue(s[|s| - 1])
  }

  /** `str(n)` for a natural number: shortest decimal form, no leading zero. */
  function DecimalText(n: nat): (s: string)
    ensures |s| >= 1 && AllDigits(s)
    ensures s[0] == '0' ==> n == 0
    ensures n < 10 ==> |s| == 1
    ensures n < 100 ==> |s| <= 2
    ensures n < 1000 ==> |s| <= 3
  {
    if n < 10 then [DigitChar(n)] else DecimalText(n / 10) + [DigitChar(n % 10)]
  }

  lemma {:induction false} DecimalRoundTrip(n: nat)
    ensures DecimalValue(DecimalText(n)) == n
  {
    if n >= 10 {
      DecimalRoundTrip(n / 10);
      var s := DecimalText(n);
      assert s[..|s| - 1] == DecimalText(n / 10);
    }
  }

  /** Digits whose value is zero are all '0'. */
  lemma {:induction false} ZeroValueAllZeros(s: string)
    requires AllDigits(s) && DecimalValue(s) == 0
    ensures forall i :: 0 <= i < |s| ==> s[i] == '0'
    decreases |s|
  {
    if s != [] {
      var init := s[..|s| - 1];
      ZeroValueAllZeros(init);
      forall i | 0 <= i < |s| ensures s[i] == '0' {
        if i < |init| {
          assert s[i] == init[i];
        }
      }
    }
  }

  /** Digits without a leading zero (other than "0" itself) are the shortest
      decimal form of their value: `str(int(t)) == t`. */
  lemma {:induction false} DecimalCanonical(t: string)
    requires t != [] && AllDigits(t) && (t[0] == '0' ==> t == "0")
    ensures DecimalText(DecimalValue(t)) == t
    decreases |t|
  {
    var v := DecimalValue(t);
    var last := t[|t| - 1];
    if |t| == 1 {
      assert t[..|t| - 1] == [];
      assert DecimalValue(t[..|t| - 1]) == 0;
      assert v == DigitValue(last);
      assert DigitChar(v) == last;
    } else {
      var init := t[..|t| - 1];
      assert init[0] == t[0] != '0';
      if DecimalValue(init) == 0 {
        ZeroValueAllZeros(init);
        assert false;
      }
      DecimalCanonical(init);
      assert v / 10 == DecimalValue(init) && v % 10 == DigitValue(last);
      assert DigitChar(v % 10) == last;
      assert t == init + [last];
    }
  }

  /** Python's `int(s)` on text that `strip` has already trimmed: an optional
      sign followed by one or more ASCII digits. */
  function ParseInt(s: string): (r: Option<int>)
    ensures r.Some? <==>
      (|s| >= 1 && AllDigits(s)) || (|s| >= 2 && (s[0] == '-' || s[0] == '+') && AllDigits(s[1..]))
    ensures r.Some? && s[0] == '-' ==> r.value == -(DecimalValue(s[1..]) as int)
    ensures r.Some? && s[0] == '+' ==> r.value == DecimalValue(s[1..])
    ensures r.Some? && IsDigit(s[0]) ==> r.value == DecimalValue(s)
  {
    if |s| >= 2 && s[0] == '-' && AllDigits(s[1..]) then
      var magnitude: int := DecimalValue(s[1..]);
      Some(-magnitude)
    else if |s| >= 2 && s[0] == '+' && AllDigits(s[1..]) then Some(DecimalValue(s[1..]))
    else if |s| >= 1 && AllDigits(s) then Some(DecimalValue(s))
    else None
  }

  /** `int(str(n))`, after stripping, gives `n` back. */
  lemma ParseIntOfDecimal(n: nat)
    ensures ParseInt(Strip(DecimalText(n))) == Some(n)
  {
    var s := DecimalText(n);
    StripMeaning(s);
    assert Strip(s) == s;
    DecimalRoundTrip(n);
  }

  /** Python's `a < b` on strings: lexicographic by code point, a proper
      prefix coming first. */
  predicate Below(a: string, b: string)
    decreases |a|
  {
    if a == [] then b != []
    else b != [] && (a[0] < b[0] || (a[0] == b[0] && Below(a[1..], b[1..])))
  }

  lemma {:induction false} BelowIrreflexive(a: string)
    ensures !Below(a, a)
    decreases |a|
  {
    if a != [] {
      BelowIrreflexive(a[1..]);
    }
  }

  lemma {:induction false} BelowAsymmetric(a: string, b: string)
    ensures Below(a, b) ==> !Below(b, a)
    decreases |a|
  {
    if a != [] && b != [] {
      BelowAsymmetric(a[1..], b[1..]);
    }
  }

  lemma {:induction false} BelowTransitive(a: string, b: string, c: string)
    requires Below(a, b) && Below(b, c)
    ensures Below(a, c)
    decreases |a|
  {
    if a != [] && a[0] == b[0] && b[0] == c[0] {
      BelowTransitive(a[1..], b[1..], c[1..]);
    }
  }

  lemma {:induction false} BelowTotal(a: string, b: string)
    requires a != b
    ensures Below(a, b) || Below(b, a)
    decreases |a|
  {
    if a != [] && b != [] && a[0] == b[0] {
      assert a[1..] != b[1..] by {
        assert a == [a[0]] + a[1..] && b == [b[0]] + b[1..];
      }
      BelowTotal(a[1..], b[1..]);
    }
  }

  /** `m` is in `s` and comes before every other element of `s`. */
  predicate IsLeast(m: string, s: set<string>) {
    m in s && forall x :: x in s && x != m ==> Below(m, x)
  }

  /** A non-empty finite set of strings has a least element. */
  lemma {:induction false} LeastExists(s: set<string>)
    requires s != {}
    ensures exists m :: IsLeast(m, s)
    decreases s
  {
    var y :| y in s;
    if s == {y} {
      assert IsLeast(y, s);
    } else {
      LeastExists(s - {y});
      var m :| IsLeast(m, s - {y});
      BelowTotal(y, m);
      if Below(y, m) {
        forall x | x in s && x != y ensures Below(y, x) {
          if x != m { BelowTransitive(y, m, x); }
        }
        assert IsLeast(y, s);
      } else {
        assert IsLeast(m, s);
      }
    }
  }

  /** The least element of a non-empty set of strings. */
  function Least(s: set<string>): (m: string)
    requires s != {}
    ensures IsLeast(m, s)
  {
    LeastExists(s);
    assert forall a, b :: Below(a, b) ==> !Below(b, a) by {
      forall a, b ensures Below(a, b) ==> !Below(b, a) { BelowAsymmetric(a, b); }
    }
    var m :| IsLeast(m, s);
    m
  }

  /** Python's `sorted(names)` for a set of distinct strings. */
  function SortedNames(s: set<string>): (r: seq<string>)
    ensures |r| == |s|
    ensures forall x :: x in r <==> x in s
    ensures forall i, j :: 0 <= i < j < |r| ==> Below(r[i], r[j])
    decreases s
  {
    if s == {} then []
    else
      var m := Least(s);
      var rest := SortedNames(s - {m});
      assert forall j :: 0 <= j < |rest| ==> Below(m, rest[j]) by {
        forall j | 0 <= j < |rest| ensures Below(m, rest[j]) {
          assert rest[j] in s - {m};
        }
      }
      [m] + rest
  }
}

=== FILE: values.dfy ===
/** The already-decoded documents the generator inspects: a YAML resource
    config and a JSON registry payload, both as Python `dict`/`list`/`str`/...
    values. Decoding itself happens outside the model. */
module Values {
  import opened Wrappers

  /** A decoded value. An object keeps its bindings in document order; the
      decoders give each key once, so the first binding is the only one.
      Numbers are integers: fractional JSON numbers are not part of this model. */
  datatype Value =
    | Null
    | Bool(b: bool)
    | Num(n: int)
    | Str(s: string)
    | Arr(items: seq<Value>)
    | Obj(fields: seq<(string, Value)>)

  /** Python truthiness: `None`, `False`, `0` and empty containers are false. */
  predicate Truthy(v: Value) {
    match v
    case Null => false
    case Bool(b) => b
    case Num(n) => n != 0
    case Str(s) => s != ""
    case Arr(items) => items != []
    case Obj(fields) => fields != []
  }

  /** The value bound to `key`, if any. */
  function Lookup(fields: seq<(string, Value)>, key: string): (r: Option<Value>)
    ensures r.Some? ==> exists i :: 0 <= i < |fields| && fields[i] == (key, r.value)
    ensures r.None? ==> forall i :: 0 <= i < |fields| ==> fields[i].0 != key
  {
    if fields == [] then None
    else if fields[0].0 == key then Some(fields[0].1)
    else
      var r := Lookup(fields[1..], key);
      assert r.Some? ==> fields[1..][0..] == fields[1..];
      r
  }

  /** Python's `v.get(key)` for a dict `v`; `None` for a missing key or for a
      value that is not a dict (the callers guard with `isinstance`). */
  function Get(v: Value, key: string): (r: Value)
    ensures !v.Obj? ==> r == Null
    ensures v.Obj? && Lookup(v.fields, key).Some? ==> r == Lookup(v.fields, key).value
    ensures v.Obj? && Lookup(v.fields, key).None? ==> r == Null
  {
    if v.Obj? then
      match Lookup(v.fields, key)
      case Some(x) => x
      case None => Null
    else Null
  }

  /** Python's `key in v` for a dict `v`. */
  predicate HasKey(v: Value, key: string) {
    v.Obj? && Lookup(v.fields, key).Some?
  }

  /** What `for item in v` visits: the items of a list, the one-character
      strings of a str, the keys of a dict; `None` when Python raises
      `TypeError` because the value is not iterable. */
  function Iterate(v: Value): (r: Option<seq<Value>>)
    ensures r.None? <==> v.Null? || v.Bool? || v.Num?
    ensures v.Arr? ==> r == Some(v.items)
    ensures v.Str? ==> (r.Some? && |r.value| == |v.s| &&
                        forall i :: 0 <= i < |v.s| ==> r.value[i] == Str([v.s[i]]))
    ensures v.Obj? ==> (r.Some? && |r.value| == |v.fields| &&
                        forall i :: 0 <= i < |v.fields| ==> r.value[i] == Str(v.fields[i].0))
  {
    match v
    case Arr(items) => Some(items)
    case Str(s) => Some(seq(|s|, i requires 0 <= i < |s| => Str([s[i]])))
    case Obj(fields) => Some(seq(|fields|, i requires 0 <= i < |fields| => Str(fields[i].0)))
    case _ => None
  }
}

/** The failures the generator reports. All but `NotIterable` are raised as
    `GeneratorError`; `NotIterable` is the `TypeError` Python raises when a
    truthy `prefixes` value is a number or `True`. */
module Errors {

  /** What the self-check found wrong with a rendered artifact. */
  datatype CheckError =
    | RemoveLineMissing
    | RemoveLineNotFirst
    | CountHeaderMissing
    | CountHeaderInvalid
    | AddLineMissingList
    | NoAddLines
    | CountMismatch

  /** Which step of the write / read back / self-check / rename sequence failed. */
  datatype PublishCause =
    | WriteError
    | ReadError
    | SelfCheckFailed(check: CheckError)
    | RenameError

  datatype Error =
    | ConfigNotFound(name: string)
    | ConfigUnreadable(name: string)
    | InvalidStructure
    | InvalidResourceId
    | InvalidAsns
    | ResourceIdMismatch
    | RequestFailed
    | Non200(status: int)
    | MalformedJson
    | EmptyPrefixes
    | NotIterable
    | NoIpv4Prefixes
    | WriteFailed(path: string, cause: PublishCause)
    | ResourcesDirMissing
}

=== FILE: wrappers.dfy ===
/** Option, Result and Outcome: the model's stand-ins for Python's `None`
    results and raised exceptions. */
module Wrappers {

  datatype Option<+T> = None | Some(value: T)

  /** A computation that either produced `value` or raised `error`. */
  datatype Result<+T, +E> = Ok(value: T) | Err(error: E)

  /** A check that either passed or raised `error`. */
  datatype Outcome<+E> = Pass | Fail(error: E)
}
